=== FILE: README.md ===
# Message utilities of langchain-core, modelled in Dafny

This project models the message utilities of `langchain_core.messages.utils`. These are pure
transformations over lists of chat messages:

- **Normaliser.** Turns message-like values into messages. A value may be a message, a
  string, a `(role, content)` pair or a message dict.
- **Decoding.** Reads serialised messages back from their twelve `type` labels.
- **Chunk conversions.** Map between the six plain message classes and their six streaming
  "chunk" subclasses.
- **Transcript renderer** (`get_buffer_string`).
- **Filter** (`filter_messages`).
- **Run merger** (`merge_message_runs`).
- **Token-budget trimmer** (`trim_messages` with its "first" and "last" strategies).

A message is a kind (human, ai, system, chat, function or tool), a chunk flag and a body.
The body holds the content (a string or a list of blocks), the name, the id and the other
fields. Python's `isinstance` is modelled for the twelve concrete classes: a chunk class is
a subclass of its plain class, so a chunk is an instance of both.

Every exception this file raises becomes an `Err` of one `Error` type, one constructor per
exception kind. The chunk `+` operator, the token counter and the text splitter are
supplied from outside this code, so all three are function-valued parameters, and they are
taken never to raise.

The modules follow the structure of the source file:

- `Results`: `Option`, `Result` and a fail-fast map.
- `Text`: `str.split` and `str.join`.
- `Seqs`: the Python slices the trimmer uses.
- `Messages`: the data model, type labels and `isinstance`.
- `Chunks`: the class tables and conversions.
- `Serialization`: message decoding.
- `Normalize`: the normaliser.
- `Buffer`: the transcript renderer.
- `Filter`: message filtering.
- `Merge`: the run merger.
- `FirstN`: the "first" strategy.
- `Trim`: the "last" strategy and the `trim_messages` entry point.

Several behaviours of the code differ from what its docstrings suggest. The model follows
the code in each case:

- **`keep_system` with the "last" strategy.** The working list is
  `messages[:1] + messages[1::-1]`. For two or more messages that is the system message,
  the second message, and the system message again; it is not the reversed tail. The result
  is `r[:1] + r[1::-1]`. So the system message comes back twice, nothing from input
  index 2 onwards is ever kept, and the result can exceed the budget
  (`Trim.KeepSystemExceedsBudget`, `Trim.KeepSystemTriplesLoneSystem`).
- **A list of types as `end_on`/`start_on` is ignored.** Only a single string or class
  triggers the boundary loop.
- **An empty string still drives the boundary loop.** Under "first", an `end_on` of `""` is
  a string, so the boundary loop runs. No message has the `type` `""`, so the loop cuts
  the result to nothing. Falsiness matters only where the option would clash with the
  strategy (`end_on=""` with "last", `start_on=""` with "first"): the check lets it pass,
  and that strategy never reads the option.
- **Class-valued `excl_types` never exclude anything.** They are matched against `msg.type`,
  which is a string.
- **No include argument means nothing is kept.** `filter_messages` with no `incl_*`
  argument returns an empty list.
- **The boundary loop can raise IndexError.** It reads `messages[idx - 1]` before testing
  `idx > 0`. That fails only on an empty list.
- **Partial truncation needs two dropped messages.** It is tried only when at least two
  messages were dropped, and never when exactly one was.

## Model

| member | source | states |
|---|---|---|
| Results.MapAll | libs/core/langchain_core/messages/utils.py:118 | a list comprehension over a raising function succeeds iff every element does; the results are pointwise and in order; an error is the first failing element's |
| Messages.TypeLabel | libs/core/langchain_core/messages/utils.py:80-104 | every class has a non-empty `type` label |
| Messages.TypeLabelInjective | libs/core/langchain_core/messages/utils.py:80-104 | the twelve labels are pairwise distinct, so a label identifies its class |
| Messages.WithContent | libs/core/langchain_core/messages/utils.py:491-494 | the copy whose content is replaced keeps its class and every other field |
| Text.Split | libs/core/langchain_core/messages/utils.py:610-611 | `str.split(sep)` gives at least one part and no part contains the separator |
| Text.JoinSplit | libs/core/langchain_core/messages/utils.py:610-611 | joining the split parts with the separator restores the string |
| Text.SplitJoin | libs/core/langchain_core/messages/utils.py:76 | splitting a join of non-empty separator-free parts recovers the parts |
| Text.SplitCount | libs/core/langchain_core/messages/utils.py:610-611 | the number of parts is the number of separators plus one |
| Buffer.RenderLine | libs/core/langchain_core/messages/utils.py:56-75 | each message's line starts with its role prefix and `": "`; after that comes the string content, or the rendering of the block list; an AI message with a `function_call` keyword argument has that value appended at the end, after its content |
| Buffer.Lines | libs/core/langchain_core/messages/utils.py:56-75 | one line per message, in order |
| Buffer.GetBufferString | libs/core/langchain_core/messages/utils.py:30-76 | the transcript is empty iff there are no messages, and starts with the first message's line |
| Buffer.BufferStringLines | libs/core/langchain_core/messages/utils.py:56-76 | when no line contains a newline, splitting the transcript on newlines gives back exactly one line per message, each opening with that message's role; after the prefix, a message with string content and no `function_call` reads back exactly that content |
| Serialization.ClassOfLabelInvertsTypeLabel | libs/core/langchain_core/messages/utils.py:80-106 | the decoder's label dispatch accepts a label iff it is some class's `type`, and maps it to that class |
| Serialization.MessageFromDict | libs/core/langchain_core/messages/utils.py:79-106 | a missing `type` raises KeyError; an unknown label raises ValueError iff no class has it; a known label without `data` raises KeyError("data"); a known label with data decodes to a message of that class carrying the data |
| Serialization.MessagesFromDict | libs/core/langchain_core/messages/utils.py:109-118 | decoding a list succeeds iff every element decodes, pointwise and in order |
| Serialization.SerializeRoundTrip | libs/core/langchain_core/messages/utils.py:79-106 | decoding a message's `type` and fields gives back the message, for all twelve classes |
| Serialization.SerializeAllRoundTrip | libs/core/langchain_core/messages/utils.py:109-118 | the same for whole lists |
| Chunks.MsgChunkMapShape | libs/core/langchain_core/messages/utils.py:569-576 | the message-to-chunk table has exactly the six plain classes as keys, each mapped to its family's chunk class |
| Chunks.ChunkMsgMapShape | libs/core/langchain_core/messages/utils.py:577 | the inverted table has exactly the six chunk classes as keys, each mapped to its family's plain class |
| Chunks.ChunkTablesAreInverse | libs/core/langchain_core/messages/utils.py:569-577 | the two tables are mutually inverse bijections |
| Chunks.MsgToChunk | libs/core/langchain_core/messages/utils.py:580-591 | the result is a chunk of the same family with the same fields |
| Chunks.ChunkToMsg | libs/core/langchain_core/messages/utils.py:594-607 | succeeds iff given a chunk (a plain message raises ValueError); the result is the plain class of the same family with every field but `tool_call_chunks` kept |
| Chunks.ConversionsFollowTables | libs/core/langchain_core/messages/utils.py:580-607 | both conversions send a class to the class the tables give |
| Chunks.MessageChunkToMessage | libs/core/langchain_core/messages/utils.py:121-138 | non-chunks pass through; a chunk becomes its plain class with the same fields, except that an AI chunk loses `tool_call_chunks` |
| Chunks.ChunkRoundTrip | libs/core/langchain_core/messages/utils.py:121-138 | a plain message converted to a chunk and back, by either route, is unchanged |
| Chunks.ChunkConversionsAgree | libs/core/langchain_core/messages/utils.py:121-138 | `_chunk_to_msg` and `message_chunk_to_message` agree on AI chunks and on chunks without `tool_call_chunks` |
| Chunks.MsgToChunkIdempotent | libs/core/langchain_core/messages/utils.py:580-591 | converting a chunk to a chunk changes nothing |
| Normalize.RoleKind | libs/core/langchain_core/messages/utils.py:175-189 | the role table accepts exactly human, user, ai, assistant, system, function and tool, and never yields a chat message |
| Normalize.RoleKindInvertsTypeLabel | libs/core/langchain_core/messages/utils.py:175-189 | the role table maps the `type` of every plain non-chat message back to its kind |
| Normalize.CreateMessage | libs/core/langchain_core/messages/utils.py:146-190 | succeeds iff the role is in the table (ValueError otherwise); the result is a plain message of that kind carrying exactly the given content and optional fields |
| Normalize.ConvertToMessage | libs/core/langchain_core/messages/utils.py:193-236 | a message passes through; a string becomes a bare human message; a pair succeeds iff its first element is a known role, and gives that role's kind with the second element as content and no other field; a sequence of any other length is unsupported; a dict fails for a missing role/type or content, raises TypeError for a `message_type` key, and otherwise succeeds iff its role (before its type) is known, carrying its name, id, tool fields and every other key (the leftover `type` included) as extra kwargs; anything else is unsupported |
| Normalize.ConvertToMessages | libs/core/langchain_core/messages/utils.py:239-250 | a one-to-one, order-preserving conversion that fails with the first failing element's error |
| Normalize.ConvertMessagesIdentity | libs/core/langchain_core/messages/utils.py:210-211 | already-converted messages are returned unchanged |
| Normalize.PairAndDictAgree | libs/core/langchain_core/messages/utils.py:214-232 | a `(role, content)` pair and a dict with only `role` and `content` normalise to the same message |
| Normalize.PairRoundTrip | libs/core/langchain_core/messages/utils.py:214-217 | normalising the `(type, content)` pair of a plain non-chat message without optional fields gives back that message |
| Filter.TypeNames | libs/core/langchain_core/messages/utils.py:314-316 | the string entries of a type list |
| Filter.TypeClasses | libs/core/langchain_core/messages/utils.py:315-317 | the class entries of a type list |
| Filter.FilterConverted | libs/core/langchain_core/messages/utils.py:320-347 | the result is an order-preserving subsequence; each of its messages passes an include test and no exclude test; every such input message appears in it, as often as it occurs |
| Filter.FilterMessages | libs/core/langchain_core/messages/utils.py:253-347 | filtering fails iff normalisation fails, with its error; otherwise the result is the subsequence of exactly the kept messages: every message in it is kept, every kept message is in it, and it has as many elements as there are kept messages |
| Filter.NoIncludesKeepsNothing | libs/core/langchain_core/messages/utils.py:332-345 | with no include argument the result is empty |
| Filter.ExcludedNeverKept | libs/core/langchain_core/messages/utils.py:321-328 | no kept message has an excluded name, id or type string |
| Filter.ExcludedClassesIgnored | libs/core/langchain_core/messages/utils.py:325 | removing every class from `excl_types` leaves the result unchanged |
| Filter.FilterSameKept | libs/core/langchain_core/messages/utils.py:320-347 | option sets that keep the same messages filter alike |
| Merge.Combine | libs/core/langchain_core/messages/utils.py:377 | combining succeeds iff the chunk sum is a chunk, and yields a plain message of the sum's family whose fields are the sum's, less `tool_call_chunks` |
| Merge.MergeFrom | libs/core/langchain_core/messages/utils.py:371-378 | the loop only appends to the settled output and never produces more messages than it consumes |
| Merge.MergeRuns | libs/core/langchain_core/messages/utils.py:369-378 | empty input gives an empty list; otherwise a non-empty list no longer than the input |
| Merge.MergeMessageRuns | libs/core/langchain_core/messages/utils.py:350-378 | empty input gives an empty list; otherwise a normalisation failure is returned with its error; the output is no longer than the input |
| Merge.Collapse | libs/core/langchain_core/messages/utils.py:371-378 | collapsing runs keeps the first element |
| Merge.CollapseNoEqualNeighbours | libs/core/langchain_core/messages/utils.py:371-378 | a collapsed kind sequence has no two equal neighbours |
| Merge.CollapseIdentity | libs/core/langchain_core/messages/utils.py:371-378 | collapsing a sequence without equal neighbours changes nothing |
| Merge.MergeFromKinds | libs/core/langchain_core/messages/utils.py:371-378 | the loop invariant: for plain messages the output's kinds are the settled kinds followed by the collapse of the last and remaining kinds, and nothing fails |
| Merge.MergeRunsCollapsesKinds | libs/core/langchain_core/messages/utils.py:367-378 | for plain messages the output's kinds are the input's with adjacent duplicates collapsed, so no two neighbours share a kind, and every output is plain |
| Merge.MergeMessageRunsCollapses | libs/core/langchain_core/messages/utils.py:350-378 | when no input is already a chunk, merging fails iff normalisation does, and the merged kinds are the normalised kinds with runs collapsed |
| Merge.MergeFromNoJoins | libs/core/langchain_core/messages/utils.py:374-375 | when no message is an instance of its predecessor's class, the loop returns its input unchanged |
| Merge.MergeFromRun | libs/core/langchain_core/messages/utils.py:371-377 | a run of one family after a plain message of it is replaced by the left-to-right `+` fold of the run into that message, and the loop carries on at the next family |
| Merge.MergeFromLastRun | libs/core/langchain_core/messages/utils.py:371-378 | the final run is folded in the same way, and the output ends with the folded message |
| Merge.MergeTwoThenOther | libs/core/langchain_core/messages/utils.py:367-378 | two plain human messages then an AI message merge into the combined human message followed by the AI message |
| Merge.MergeRunsIdempotent | libs/core/langchain_core/messages/utils.py:367-378 | merging plain messages twice gives the same as merging once |
| Merge.ChunkJoinsPlainButNotConversely | libs/core/langchain_core/messages/utils.py:374 | a chunk after a plain message of its family is merged into it; a plain message after a chunk of its family is kept separate |
| FirstN.Search | libs/core/langchain_core/messages/utils.py:481-486 | the search returns the largest prefix length within budget among those tried, or 0, and every longer length tried is over budget |
| FirstN.LongestFitUnique | libs/core/langchain_core/messages/utils.py:481-486 | the longest fitting prefix length is unique |
| FirstN.FirstTextBlock | libs/core/langchain_core/messages/utils.py:502-513 | the scan gives None iff there is no text block and no typeless mapping; otherwise the text of the first text block, with nothing but typed non-text blocks before it; failures are KeyError on `type` or `text` |
| FirstN.FirstTextBlockAt | libs/core/langchain_core/messages/utils.py:502-513 | when every block before position `i` is a typed non-text block, the scan's outcome is decided by block `i`: KeyError on `type` if it has no type, KeyError on `text` if it is a text block without text, and otherwise that block's text |
| FirstN.LeadingText | libs/core/langchain_core/messages/utils.py:502-517 | string content is its own text; only list content can raise |
| FirstN.WrapText | libs/core/langchain_core/messages/utils.py:520 | one `{"type": "text", "text": t}` block per part, in order |
| FirstN.WrapTextFirst | libs/core/langchain_core/messages/utils.py:502-520 | the text scan of wrapped parts finds the first part |
| FirstN.LargestCut | libs/core/langchain_core/messages/utils.py:493-499 | the drop loop returns the largest cut tried whose copy fits after the prefix, or 0, and every larger cut tried is over budget |
| FirstN.ProperCut | libs/core/langchain_core/messages/utils.py:493-499 | only non-empty proper cuts are tried |
| FirstN.ProperCutFinds | libs/core/langchain_core/messages/utils.py:493-499 | the drop loop finds a cut iff some proper cut fits, and the cut it finds is the largest that fits |
| FirstN.BestCutIsPartial | libs/core/langchain_core/messages/utils.py:488-526 | the copy partial truncation keeps is a partial copy of the message within budget |
| FirstN.PartialCopy | libs/core/langchain_core/messages/utils.py:488-526 | a copy is found iff some proper block cut or some proper cut of the split leading text fits; it is the largest fitting block cut when one exists and only otherwise the largest fitting text cut; it fails iff no block cut fits and reading the first text raises KeyError |
| FirstN.Truncate | libs/core/langchain_core/messages/utils.py:488-526 | the working list changes only when partial truncation is on and at least two messages were dropped; it then becomes the prefix plus one partial copy, within budget, and the end moves past the copy |
| FirstN.TruncateChoosesBestCut | libs/core/langchain_core/messages/utils.py:488-526 | the partial stage changes the list iff it applies and some block or text cut fits, appending the best cut; it fails iff it applies, no block cut fits and the first text cannot be read |
| FirstN.Shrink | libs/core/langchain_core/messages/utils.py:528-533 | the boundary loop moves the end back to the nearest matching message, skipping only non-matching ones, or to 0 |
| FirstN.Snap | libs/core/langchain_core/messages/utils.py:528-535 | snapping fails iff a single boundary meets an empty list; it only moves the end back, and leaves it alone without a single boundary |
| FirstN.FirstNTokens | libs/core/langchain_core/messages/utils.py:471-537 | the result is a prefix whose last message may be a partial copy; IndexError iff a single `end_on` meets an empty list; without partial truncation nothing else fails; without a single `end_on` a non-empty result is within budget; with one it ends on a matching message |
| FirstN.FirstNPrefixSearch | libs/core/langchain_core/messages/utils.py:481-486 | without partial truncation or a single `end_on`, the result is exactly the longest non-empty prefix within budget, or empty |
| FirstN.PartialNeedsTwoDropped | libs/core/langchain_core/messages/utils.py:488 | when at most one message was dropped, `allow_partial` makes no difference |
| FirstN.FirstNPartialShape | libs/core/langchain_core/messages/utils.py:481-526 | with partial truncation and no single `end_on`, the result has the shape `FirstN.PartialShape` describes: the longest fitting prefix exactly when no proper cut of the next message fits (or fewer than two messages were dropped), otherwise that prefix plus the best cut of the next message, within budget |
| FirstN.SeveralBoundariesIgnored | libs/core/langchain_core/messages/utils.py:528-535 | a list of types as `end_on` behaves as no `end_on` |
| FirstN.EndOnShrinks | libs/core/langchain_core/messages/utils.py:528-537 | a single `end_on` only shrinks the result to its longest prefix ending on a match (or nothing), and fails exactly on an empty list |
| FirstN.FirstNWithinBudget | libs/core/langchain_core/messages/utils.py:471-537 | for a counter that never decreases as the list grows, every non-empty result is within budget, with or without `end_on` |
| FirstN.SearchAgrees | libs/core/langchain_core/messages/utils.py:483-486 | the search only measures non-empty prefixes |
| FirstN.LargestCutAgrees | libs/core/langchain_core/messages/utils.py:493-499 | the drop loop only measures non-empty lists |
| FirstN.PartialCopyAgrees | libs/core/langchain_core/messages/utils.py:488-526 | partial truncation only measures non-empty lists |
| FirstN.EmptyListNeverCounted | libs/core/langchain_core/messages/utils.py:471-537 | the counter is never applied to the empty list: counters that differ only there give the same result |
| FirstN.DefaultTextSplitter | libs/core/langchain_core/messages/utils.py:610-611 | the default splitter yields at least one piece and no piece holds a newline |
| FirstN.DefaultTextSplitterRoundTrip | libs/core/langchain_core/messages/utils.py:610-611 | joining the pieces with newlines restores the text; there is one piece more than there are newlines |
| Trim.ListCounterOfSums | libs/core/langchain_core/messages/utils.py:438-446 | the lifted per-message counter gives 0 for the empty list, and appending a message adds its count |
| Trim.SumCountsAppend | libs/core/langchain_core/messages/utils.py:443-444 | the lifted count of a concatenation is the sum of the counts |
| Trim.SumCountsReverse | libs/core/langchain_core/messages/utils.py:443-444 | the lifted count does not depend on the order of the list |
| Trim.SumCountsMonotone | libs/core/langchain_core/messages/utils.py:443-444 | with non-negative per-message counts the lifted counter never decreases as the list grows |
| Trim.LastNTokens | libs/core/langchain_core/messages/utils.py:540-566 | failures are IndexError or KeyError; without partial truncation it fails iff the list is empty and `keep_system` or a single `start_on` is given |
| Trim.LastNKeepsSuffix | libs/core/langchain_core/messages/utils.py:549-566 | without `keep_system` the result is a suffix whose first message may be a partial copy; it starts on a single `start_on` type, and without one it is within budget as counted in reversed order |
| Trim.LastNReversesFirst | libs/core/langchain_core/messages/utils.py:549-566 | without `keep_system`, "last" succeeds iff "first" on the reversed list succeeds, with the same error, and its result reversed is that result |
| Trim.LastNPartialShape | libs/core/langchain_core/messages/utils.py:549-566 | with partial truncation, no `keep_system` and no single `start_on`, "last" keeps a suffix whose reversal has the partial-truncation shape of the reversed list: the longest fitting suffix, or that suffix preceded by the best cut of the message before it |
| Trim.LastNLongestSuffix | libs/core/langchain_core/messages/utils.py:540-566 | without partial truncation, `keep_system` or a single `start_on`, "last" keeps exactly the longest non-empty suffix within budget as counted in reversed order, or nothing |
| Trim.ReversedKeptPrefix | libs/core/langchain_core/messages/utils.py:553-566 | reversing a kept prefix of the reversed list gives a kept suffix of the list |
| Trim.KeepSystemShape | libs/core/langchain_core/messages/utils.py:549-564 | with `keep_system` and a leading system message, a non-empty result has two or three messages and starts and ends with the same copy of the system message |
| Trim.KeepSystemExceedsBudget | libs/core/langchain_core/messages/utils.py:549-564 | four one-token messages under a budget of two yield the system message, the first human message and the system message again: three tokens |
| Trim.KeepSystemTriplesLoneSystem | libs/core/langchain_core/messages/utils.py:549-564 | a lone system message comes back three times |
| Trim.KeepSystemWithoutSystem | libs/core/langchain_core/messages/utils.py:549-566 | `keep_system` without a leading system message gives the same result as plain "last" on a non-empty list |
| Trim.KeepSystemLongestFit | libs/core/langchain_core/messages/utils.py:549-564 | with `keep_system` and a leading system message, and no partial truncation or single `start_on`, the result is the `r[:1] + r[1::-1]` slices of the longest fitting prefix `r` of `messages[:1] + messages[1::-1]` |
| Trim.UnitCostExample | libs/core/langchain_core/messages/utils.py:448-464 | with one token per message and a budget of two, "first" keeps the first two messages and "last" the last two |
| Trim.TrimMessages | libs/core/langchain_core/messages/utils.py:381-468 | ValueError for incompatible options iff one of the three checks fires; ValueError for the strategy iff the options pass, normalisation succeeds and the strategy is neither "first" nor "last"; normalisation errors propagate; "first" keeps a prefix and "last" without `keep_system` a suffix |
| Trim.TrimDispatch | libs/core/langchain_core/messages/utils.py:448-464 | for valid options and convertible input, "first" is `_first_n_tokens` with `end_on` and "last" is `_last_n_tokens` with `keep_system` and `start_on`, both on the converted messages with the lifted counter and the same `allow_partial` |
| Trim.TrimWithinBudget | libs/core/langchain_core/messages/utils.py:381-566 | with non-negative per-message counts and no `keep_system`, every non-empty result of either strategy is within budget |
| Trim.TrimLongestFit | libs/core/langchain_core/messages/utils.py:448-468 | for valid options, with no partial truncation or single boundary type, "first" returns exactly the longest fitting prefix and "last" exactly the longest fitting suffix |
| Trim.TrimIndexError | libs/core/langchain_core/messages/utils.py:448-468 | for valid options and no partial truncation, the only failure is IndexError: under "first" iff the list is empty and a single `end_on` is given; under "last" iff it is empty and `keep_system` or a single `start_on` is given |

## Left out

- `libs/langchain/langchain/evaluation/schema.py` is not part of this model. It holds
  abstract evaluator interfaces and asynchronous dispatch, with no logic of this module.
- The chunk `+` operator is a parameter. It is defined on the message classes, outside this
  file. Results about merging assume only `Merge.AddKeepsClass`: a sum of two chunks of
  one family is a chunk of that family.
- The token counter is a parameter. Its type (`Trim.TokenCounter`) says whether it counts
  one message or a list. The source decides this with `inspect.signature`, which is not
  modelled.
- Pydantic construction, `.dict()`, `.copy(deep=True)` and the `__mro__` lookup are not
  modelled. Messages are values, so copies are implicit.
- Constructor validation inside the message classes is not modelled. It is not visible in
  this file.
- `str()` of list content and of the `function_call` value is not modelled.
  `get_buffer_string` renders list content through a parameter. Values in
  `additional_kwargs` are kept as already-rendered strings.
- Non-string Python values where strings are expected are not modelled. Examples are a
  non-string role, block `type` or `text`, or a non-dict block. The same goes for dict
  keys that collide with the named parameters of `_create_message_from_message_type` in
  ways other than `message_type`.
- The `ValueError` for an unknown message class in `get_buffer_string` (utils.py:70) is
  unreachable here, because every modelled message belongs to one of the six families. So
  is the `ValueError` of `_msg_to_chunk` (utils.py:588): its fallback loop (utils.py:584)
  does run, for chunks, and always finds the chunk's own family. In `_chunk_to_msg` only
  the `return` inside the fallback loop (utils.py:600-602) is unreachable, because every
  chunk class is a key of the table; its `ValueError` (utils.py:604) is reached by plain
  messages and is modelled as `UnrecognizedChunkClass`.
- `BaseMessage`, `BaseMessageChunk` and user-defined subclasses cannot be named as an
  `end_on`, `start_on` or `incl_types` class: `Messages.TypeSpec` names one of the twelve
  concrete classes or a `type` string. Passing `BaseMessage` would match every message.
- Exceptions raised by the token counter, the text splitter and the chunk `+` parameter
  are not modelled. All three are total function parameters, so the model takes them never
  to raise; in the source such an exception would propagate unchanged out of
  `trim_messages` or `merge_message_runs`.
- Buffer.GetBufferString: its own contract states only emptiness and the first line.
  `Buffer.BufferStringLines` states the split into one line per message, each message's
  prefix, and the content read back for string content without a `function_call`. This
  holds only when no line holds a newline. The content of block lists and of
  `function_call` lines is stated per line by `Buffer.RenderLine`, but not read back
  through the joined transcript.
- Trim.LastNTokens: its own contract states only the error conditions. Without
  `keep_system`, the shape and budget are stated by `Trim.LastNKeepsSuffix` and
  `Trim.LastNLongestSuffix`. `Trim.LastNReversesFirst` ties "last" to "first" on the
  reversed list for every option. With partial truncation, `Trim.LastNPartialShape` gives
  the exact shape, but only without a single `start_on`. `Trim.KeepSystemWithoutSystem` states that `keep_system`
  without a leading system message changes nothing. With a leading system message, the
  result is stated by `Trim.KeepSystemLongestFit`, but only without partial truncation or a
  single `start_on`; `Trim.KeepSystemShape` gives the shape of any non-empty result.
- Filter.FilterOptions: the name and id options are lists of strings. A bare string is
  also accepted by the source. Its `in` test is then a substring test, and a message
  whose name or id is None raises TypeError. Neither behaviour is modelled.
- Merge.MergeRunsCollapsesKinds: describes the output only for inputs of plain messages.
  With chunks the result depends on the `+` operator, which is not modelled.

=== FILE: buffer.dfy ===
/** `get_buffer_string`: a transcript with one `"<role>: <content>"` line per message. */
module Buffer {
  import opened Results
  import opened Messages
  import opened Text

  /** The role shown for a message: the caller's prefixes for human and AI messages, fixed
      words for system, function and tool messages, and a chat message's own role. Chunks
      are instances of their plain class and get the same role. */
  function RolePrefix(m: Message, humanPrefix: string, aiPrefix: string): string
  {
    match m.kind
    case Human => humanPrefix
    case AI => aiPrefix
    case System => "System"
    case Function => "Function"
    case Tool => "Tool"
    case Chat => m.body.role
  }

  /** The `str()` of a message's content; block lists are rendered by `renderBlocks`. */
  function RenderContent(c: Content, renderBlocks: seq<Block> -> string): string
  {
    match c
    case Text(s) => s
    case Blocks(bs) => renderBlocks(bs)
  }

  /** An AI message (or chunk) carrying a legacy `function_call` in its additional kwargs. */
  predicate HasFunctionCall(m: Message)
  {
    m.kind == AI && "function_call" in m.body.additionalKwargs
  }

  /** The rendered legacy function call an AI message carries in its additional kwargs,
      or nothing. */
  function FunctionCallSuffix(m: Message): string
  {
    if HasFunctionCall(m) then m.body.additionalKwargs["function_call"] else ""
  }

  /** One message's line of the transcript: after the role and `": "` comes the rendered
      content, and after that, for an AI message with a function call, the call. */
  function RenderLine(m: Message, humanPrefix: string, aiPrefix: string,
                      renderBlocks: seq<Block> -> string): (line: string)
    ensures RolePrefix(m, humanPrefix, aiPrefix) + ": " <= line
    ensures |line| >= 2
    ensures var start := |RolePrefix(m, humanPrefix, aiPrefix)| + 2;
            && (m.body.content.Text? && !HasFunctionCall(m) ==> line[start..] == m.body.content.s)
            && (m.body.content.Blocks? && !HasFunctionCall(m) ==>
                  line[start..] == renderBlocks(m.body.content.blocks))
    ensures HasFunctionCall(m) ==>
              var call := m.body.additionalKwargs["function_call"];
              && |RolePrefix(m, humanPrefix, aiPrefix)| + 2 + |call| <= |line|
              && line[|line| - |call|..] == call
              && (m.body.content.Text? ==>
                    line[|RolePrefix(m, humanPrefix, aiPrefix)| + 2..|line| - |call|] == m.body.content.s)
  {
    RolePrefix(m, humanPrefix, aiPrefix) + ": " + RenderContent(m.body.content, renderBlocks)
      + FunctionCallSuffix(m)
  }

  /** The line of every message, in order. */
  function Lines(ms: seq<Message>, humanPrefix: string, aiPrefix: string,
                 renderBlocks: seq<Block> -> string): (lines: seq<string>)
    ensures |lines| == |ms|
    ensures forall i :: 0 <= i < |ms| ==> lines[i] == RenderLine(ms[i], humanPrefix, aiPrefix, renderBlocks)
  {
    if |ms| == 0 then []
    else [RenderLine(ms[0], humanPrefix, aiPrefix, renderBlocks)]
         + Lines(ms[1..], humanPrefix, aiPrefix, renderBlocks)
  }

  /** `get_buffer_string(messages, human_prefix, ai_prefix)`: the lines joined by newlines.
      The result is empty exactly for an empty list and begins with the first line. */
  function GetBufferString(ms: seq<Message>, humanPrefix: string, aiPrefix: string,
                           renderBlocks: seq<Block> -> string): (s: string)
    ensures s == "" <==> |ms| == 0
    ensures |ms| > 0 ==> RenderLine(ms[0], humanPrefix, aiPrefix, renderBlocks) <= s
  {
    var lines := Lines(ms, humanPrefix, aiPrefix, renderBlocks);
    JoinStartsWithFirst(lines, '\n');
    Join(lines, '\n')
  }

  /** A join begins with its first part and is non-empty when that part is. */
  lemma {:induction false} JoinStartsWithFirst(parts: seq<string>, sep: char)
    ensures |parts| > 0 ==> parts[0] <= Join(parts, sep)
    ensures |parts| > 0 && |parts[0]| > 0 ==> Join(parts, sep) != ""
  {
  }

  /** When no message renders to text holding a newline, splitting the transcript on
      newlines recovers exactly one line per message, each opening with the message's role
      and `": "`; after those, a line gives back the text content of a message without a
      function call. */
  lemma BufferStringLines(ms: seq<Message>, humanPrefix: string, aiPrefix: string,
                          renderBlocks: seq<Block> -> string)
    requires |ms| > 0
    requires forall i :: 0 <= i < |ms| ==> '\n' !in RenderLine(ms[i], humanPrefix, aiPrefix, renderBlocks)
    ensures var parts := Split(GetBufferString(ms, humanPrefix, aiPrefix, renderBlocks), '\n');
            |parts| == |ms| &&
            forall i :: 0 <= i < |ms| ==>
              && parts[i] == RenderLine(ms[i], humanPrefix, aiPrefix, renderBlocks)
              && RolePrefix(ms[i], humanPrefix, aiPrefix) + ": " <= parts[i]
              && (ms[i].body.content.Text? && !HasFunctionCall(ms[i]) ==>
                    parts[i][|RolePrefix(ms[i], humanPrefix, aiPrefix)| + 2..] == ms[i].body.content.s)
  {
    SplitJoin(Lines(ms, humanPrefix, aiPrefix, renderBlocks), '\n');
  }
}

=== FILE: chunks.dfy ===
/** The plain-class/chunk-class tables and the conversions between a message and its
    chunk form. */
module Chunks {
  import opened Results
  import opened Messages

  /** `_MSG_CHUNK_MAP`: each plain class to its chunk class. */
  const MsgChunkMap: map<MessageClass, MessageClass> := map[
    MessageClass(Human, false) := MessageClass(Human, true),
    MessageClass(AI, false) := MessageClass(AI, true),
    MessageClass(System, false) := MessageClass(System, true),
    MessageClass(Tool, false) := MessageClass(Tool, true),
    MessageClass(Function, false) := MessageClass(Function, true),
    MessageClass(Chat, false) := MessageClass(Chat, true)]

  /** `_CHUNK_MSG_MAP`: the inverse table (the source builds it by swapping the keys and
      values of `_MSG_CHUNK_MAP`; `ChunkTablesAreInverse` shows this display is that swap). */
  const ChunkMsgMap: map<MessageClass, MessageClass> := map[
    MessageClass(Human, true) := MessageClass(Human, false),
    MessageClass(AI, true) := MessageClass(AI, false),
    MessageClass(System, true) := MessageClass(System, false),
    MessageClass(Tool, true) := MessageClass(Tool, false),
    MessageClass(Function, true) := MessageClass(Function, false),
    MessageClass(Chat, true) := MessageClass(Chat, false)]

  /** The plain table maps exactly the six plain classes, each to its own family's chunk. */
  lemma MsgChunkMapShape(c: MessageClass)
    ensures c in MsgChunkMap <==> !c.chunk
    ensures c in MsgChunkMap ==> MsgChunkMap[c] == MessageClass(c.kind, true)
  {
    match c.kind
    case Human =>
    case AI =>
    case System =>
    case Chat =>
    case Function =>
    case Tool =>
  }

  /** The chunk table maps exactly the six chunk classes, each to its own family's plain class. */
  lemma ChunkMsgMapShape(c: MessageClass)
    ensures c in ChunkMsgMap <==> c.chunk
    ensures c in ChunkMsgMap ==> ChunkMsgMap[c] == MessageClass(c.kind, false)
  {
    match c.kind
    case Human =>
    case AI =>
    case System =>
    case Chat =>
    case Function =>
    case Tool =>
  }

  /** The two tables are mutually inverse bijections between the six plain classes and the
      six chunk classes: the chunk table is the plain table with keys and values swapped. */
  lemma ChunkTablesAreInverse()
    ensures forall c :: c in MsgChunkMap ==> MsgChunkMap[c] in ChunkMsgMap && ChunkMsgMap[MsgChunkMap[c]] == c
    ensures forall c :: c in ChunkMsgMap ==> ChunkMsgMap[c] in MsgChunkMap && MsgChunkMap[ChunkMsgMap[c]] == c
    ensures MsgChunkMap.Values == ChunkMsgMap.Keys && ChunkMsgMap.Values == MsgChunkMap.Keys
  {
    forall c: MessageClass ensures c in MsgChunkMap ==> MsgChunkMap[c] in ChunkMsgMap && ChunkMsgMap[MsgChunkMap[c]] == c {
      MsgChunkMapShape(c);
      if c in MsgChunkMap { ChunkMsgMapShape(MsgChunkMap[c]); }
    }
    forall c: MessageClass ensures c in ChunkMsgMap ==> ChunkMsgMap[c] in MsgChunkMap && MsgChunkMap[ChunkMsgMap[c]] == c {
      ChunkMsgMapShape(c);
      if c in ChunkMsgMap { MsgChunkMapShape(ChunkMsgMap[c]); }
    }
  }

  /** `_msg_to_chunk`: a plain message becomes an instance of its chunk class carrying the
      same fields; a chunk is an instance of its own family's plain class, so the fallback
      `isinstance` scan sends it to its own chunk class. */
  function MsgToChunk(m: Message): (r: Message)
    ensures r.chunk && r.kind == m.kind && r.body == m.body
  {
    MsgChunkMapShape(ClassOf(m));
    if ClassOf(m) in MsgChunkMap then
      var c := MsgChunkMap[ClassOf(m)];
      Message(c.kind, c.chunk, m.body)
    else
      m
  }

  /** `_chunk_to_msg`: a chunk becomes an instance of its plain class without the streaming
      `tool_call_chunks`; a plain message is an instance of no chunk class and is refused. */
  function ChunkToMsg(c: Message): (r: Result<Message, Error>)
    ensures r.Ok? <==> c.chunk
    ensures r.Err? ==> r.error == UnrecognizedChunkClass
    ensures r.Ok? ==> !r.value.chunk && r.value.kind == c.kind
                      && r.value.body.toolCallChunks == []
                      && r.value.body.(toolCallChunks := c.body.toolCallChunks) == c.body
  {
    ChunkMsgMapShape(ClassOf(c));
    if ClassOf(c) in ChunkMsgMap then
      var p := ChunkMsgMap[ClassOf(c)];
      Ok(Message(p.kind, p.chunk, c.body.(toolCallChunks := [])))
    else
      Err(UnrecognizedChunkClass)
  }

  /** `message_chunk_to_message`: non-chunks pass through; a chunk becomes its plain class
      with the same fields, except that an AIMessageChunk loses its `tool_call_chunks`. */
  function MessageChunkToMessage(c: Message): (r: Message)
    ensures !r.chunk && r.kind == c.kind && r.body.content == c.body.content
    ensures !c.chunk ==> r == c
    ensures c.chunk && c.kind != AI ==> r.body == c.body
    ensures c.chunk && c.kind == AI ==> r.body == c.body.(toolCallChunks := [])
  {
    if !c.chunk then c
    else
      var ignored := if c.kind == AI then c.body.(toolCallChunks := []) else c.body;
      Message(c.kind, false, ignored)
  }

  /** Both conversions follow the tables: a plain message becomes an instance of the class
      `_MSG_CHUNK_MAP` gives for its class, and a chunk an instance of the class
      `_CHUNK_MSG_MAP` gives for its class. */
  lemma ConversionsFollowTables(m: Message)
    ensures !m.chunk ==> ClassOf(m) in MsgChunkMap && ClassOf(MsgToChunk(m)) == MsgChunkMap[ClassOf(m)]
    ensures m.chunk ==> ClassOf(m) in ChunkMsgMap && ClassOf(ChunkToMsg(m).value) == ChunkMsgMap[ClassOf(m)]
  {
    MsgChunkMapShape(ClassOf(m));
    ChunkMsgMapShape(ClassOf(m));
  }

  /** Converting a plain message to its chunk and back gives the message again. */
  lemma ChunkRoundTrip(m: Message)
    requires !m.chunk && m.body.toolCallChunks == []
    ensures ChunkToMsg(MsgToChunk(m)) == Ok(m)
    ensures MessageChunkToMessage(MsgToChunk(m)) == m
  {
  }

  /** On a chunk, the public conversion and the merge-time conversion agree except that only
      the latter drops `tool_call_chunks` from non-AI chunks. */
  lemma ChunkConversionsAgree(c: Message)
    requires c.chunk
    ensures ChunkToMsg(c).Ok?
    ensures c.kind == AI || c.body.toolCallChunks == [] ==> ChunkToMsg(c) == Ok(MessageChunkToMessage(c))
  {
  }

  /** Converting a message to a chunk is idempotent. */
  lemma MsgToChunkIdempotent(m: Message)
    ensures MsgToChunk(MsgToChunk(m)) == MsgToChunk(m)
  {
  }
}

=== FILE: filter.dfy ===
/** `filter_messages`: keep the messages that pass an include test and no exclude test. */
module Filter {
  import opened Results
  import opened Messages
  import opened Normalize
  import opened Seqs

  /** The six optional arguments. An absent argument and an empty one behave alike (both are
      falsy and contain nothing), so both are the empty sequence here. */
  datatype FilterOptions = FilterOptions(
    inclNames: seq<string>, exclNames: seq<string>,
    inclTypes: seq<TypeSpec>, exclTypes: seq<TypeSpec>,
    inclIds: seq<string>, exclIds: seq<string>)

  /** `value in xs` where `value` may be None; None is in no list of strings. */
  predicate OptionIn(value: Option<string>, xs: seq<string>)
  {
    value.Some? && value.value in xs
  }

  /** The string entries of a type list, in order. */
  function TypeNames(specs: seq<TypeSpec>): (names: seq<string>)
    ensures forall t :: t in names <==> ByLabel(t) in specs
  {
    if |specs| == 0 then []
    else (if specs[0].ByLabel? then [specs[0].typeName] else []) + TypeNames(specs[1..])
  }

  /** The class entries of a type list, in order. */
  function TypeClasses(specs: seq<TypeSpec>): (classes: seq<MessageClass>)
    ensures forall c :: c in classes <==> ByClass(c) in specs
  {
    if |specs| == 0 then []
    else (if specs[0].ByClass? then [specs[0].cls] else []) + TypeClasses(specs[1..])
  }

  /** The exclude tests, in the source's order. The class-valued `excl_types` entries are
      matched by `isinstance(msg.type, classes)`; `msg.type` is a string, an instance of
      no message class, so that test never fires and does not appear here. */
  predicate Excluded(m: Message, opts: FilterOptions)
  {
    || OptionIn(m.body.name, opts.exclNames)
    || TypeOf(m) in TypeNames(opts.exclTypes)
    || OptionIn(m.body.id, opts.exclIds)
  }

  /** The include tests: a matching name, `type` string, class, or id. */
  predicate Included(m: Message, opts: FilterOptions)
  {
    || OptionIn(m.body.name, opts.inclNames)
    || TypeOf(m) in TypeNames(opts.inclTypes)
    || (exists c :: c in TypeClasses(opts.inclTypes) && IsInstance(m, c))
    || OptionIn(m.body.id, opts.inclIds)
  }

  predicate Kept(m: Message, opts: FilterOptions)
  {
    !Excluded(m, opts) && Included(m, opts)
  }

  /** How many messages of `ms` are kept. */
  function CountKept(ms: seq<Message>, opts: FilterOptions): nat
  {
    if |ms| == 0 then 0 else (if Kept(ms[0], opts) then 1 else 0) + CountKept(ms[1..], opts)
  }

  /** The filtering loop over already-converted messages: an order-preserving subsequence
      holding every kept message, as many times as it occurs, and nothing else. */
  function FilterConverted(ms: seq<Message>, opts: FilterOptions): (r: seq<Message>)
    ensures IsSubsequence(r, ms)
    ensures forall i :: 0 <= i < |r| ==> Kept(r[i], opts)
    ensures forall i :: 0 <= i < |ms| && Kept(ms[i], opts) ==> ms[i] in r
    ensures |r| == CountKept(ms, opts)
  {
    if |ms| == 0 then []
    else
      var rest := FilterConverted(ms[1..], opts);
      assert forall i :: 1 <= i < |ms| ==> ms[i] == ms[1..][i - 1];
      if Kept(ms[0], opts) then
        assert ([ms[0]] + rest)[1..] == rest;
        [ms[0]] + rest
      else
        assert IsSubsequence(rest, ms) by { SubsequenceOfTail(rest, ms); }
        rest
  }

  /** A subsequence of the tail is a subsequence of the whole. */
  lemma SubsequenceOfTail<T>(a: seq<T>, b: seq<T>)
    requires |b| > 0 && IsSubsequence(a, b[1..])
    ensures IsSubsequence(a, b)
  {
  }

  /** `filter_messages`: convert the inputs, then filter them. */
  function FilterMessages(likes: seq<MessageLike>, opts: FilterOptions): (r: Result<seq<Message>, Error>)
    ensures r.Ok? <==> ConvertToMessages(likes).Ok?
    ensures r.Err? ==> r.error == ConvertToMessages(likes).error
    ensures r.Ok? ==> IsSubsequence(r.value, ConvertToMessages(likes).value)
                      && forall i :: 0 <= i < |r.value| ==> Kept(r.value[i], opts)
    ensures r.Ok? ==> forall i :: 0 <= i < |likes| && Kept(ConvertToMessages(likes).value[i], opts) ==>
                                    ConvertToMessages(likes).value[i] in r.value
    ensures r.Ok? ==> |r.value| == CountKept(ConvertToMessages(likes).value, opts)
  {
    var ms :- ConvertToMessages(likes);
    Ok(FilterConverted(ms, opts))
  }

  /** With no include argument nothing passes, whatever is excluded. */
  lemma NoIncludesKeepsNothing(ms: seq<Message>, opts: FilterOptions)
    requires opts.inclNames == [] && opts.inclTypes == [] && opts.inclIds == []
    ensures FilterConverted(ms, opts) == []
  {
    var r := FilterConverted(ms, opts);
    if |r| > 0 {
      assert Kept(r[0], opts);
      assert TypeNames(opts.inclTypes) == [] && TypeClasses(opts.inclTypes) == [];
      assert false;
    }
  }

  /** No kept message has an excluded id, name or type string. */
  lemma ExcludedNeverKept(ms: seq<Message>, opts: FilterOptions, i: nat)
    requires i < |FilterConverted(ms, opts)|
    ensures var m := FilterConverted(ms, opts)[i];
            !OptionIn(m.body.id, opts.exclIds) && !OptionIn(m.body.name, opts.exclNames)
            && forall t :: ByLabel(t) in opts.exclTypes ==> TypeOf(m) != t
  {
  }

  /** Class-valued `excl_types` entries make no difference: dropping them all leaves the
      result unchanged, so a class never excludes anything. */
  lemma {:induction false} ExcludedClassesIgnored(ms: seq<Message>, opts: FilterOptions)
    ensures FilterConverted(ms, opts)
         == FilterConverted(ms, opts.(exclTypes := StringSpecs(opts.exclTypes)))
  {
    var opts' := opts.(exclTypes := StringSpecs(opts.exclTypes));
    assert forall m :: Kept(m, opts) <==> Kept(m, opts') by {
      forall m ensures Kept(m, opts) <==> Kept(m, opts') {
        assert forall t :: t in TypeNames(opts.exclTypes) <==> t in TypeNames(opts'.exclTypes);
      }
    }
    FilterSameKept(ms, opts, opts');
  }

  /** The string entries of a type list, kept as type specs. */
  function StringSpecs(specs: seq<TypeSpec>): (r: seq<TypeSpec>)
    ensures forall s :: s in r <==> s in specs && s.ByLabel?
  {
    if |specs| == 0 then []
    else (if specs[0].ByLabel? then [specs[0]] else []) + StringSpecs(specs[1..])
  }

  /** Two option sets that keep the same messages filter alike. */
  lemma {:induction false} FilterSameKept(ms: seq<Message>, a: FilterOptions, b: FilterOptions)
    requires forall m :: Kept(m, a) <==> Kept(m, b)
    ensures FilterConverted(ms, a) == FilterConverted(ms, b)
  {
    if |ms| > 0 {
      FilterSameKept(ms[1..], a, b);
    }
  }
}

=== FILE: first_n.dfy ===
/** `_first_n_tokens`: the longest prefix within a token budget, optionally followed by a
    truncated copy of the next message, then cut back to a message-type boundary. */
module FirstN {
  import opened Results
  import opened Messages
  import opened Text

  /** A token counter over lists of messages. It is supplied by the caller and may do
      anything; no property of it is assumed unless a lemma says so. */
  type ListCounter = seq<Message> -> int

  /** The `end_on` (and `start_on`) argument: absent, a single `type` string or class, or a
      list of them. */
  datatype Boundary = NoBoundary | Single(spec: TypeSpec) | Several(specs: seq<TypeSpec>)

  /** Python truthiness of the argument: None, the empty string and the empty list are
      false; a class is always true. */
  predicate Truthy(b: Boundary)
  {
    match b
    case NoBoundary => false
    case Single(ByLabel(t)) => t != ""
    case Single(ByClass(_)) => true
    case Several(specs) => |specs| > 0
  }

  /** `k` is the length of the longest non-empty prefix of `ms` whose count is within `n`,
      or 0 when no non-empty prefix is. The empty prefix is never measured. */
  predicate LongestFit(ms: seq<Message>, n: int, counter: ListCounter, k: nat)
  {
    && k <= |ms|
    && (k > 0 ==> counter(ms[..k]) <= n)
    && forall j :: k < j <= |ms| ==> n < counter(ms[..j])
  }

  /** At most one length is the longest fit. */
  lemma LongestFitUnique(ms: seq<Message>, n: int, counter: ListCounter, k: nat, k': nat)
    requires LongestFit(ms, n, counter, k) && LongestFit(ms, n, counter, k')
    ensures k == k'
  {
  }

  /** The search loop, trying prefix lengths `hi` down to 1 and stopping at the first that
      fits; 0 when none does. */
  function Search(ms: seq<Message>, hi: nat, n: int, counter: ListCounter): (k: nat)
    requires hi <= |ms|
    ensures k <= hi
    ensures k > 0 ==> counter(ms[..k]) <= n
    ensures forall j :: k < j <= hi ==> n < counter(ms[..j])
    decreases hi
  {
    if hi == 0 then 0
    else if counter(ms[..hi]) <= n then hi
    else Search(ms, hi - 1, n, counter)
  }

  /** A block that counts as text: a bare string, or a mapping whose `"type"` is `"text"`. */
  predicate IsTextBlock(b: Block)
  {
    b.Str? || (b.Dict? && b.blockType == Some("text"))
  }

  /** A mapping without a `"type"` key: reading its type raises KeyError. */
  predicate Typeless(b: Block)
  {
    b.Dict? && b.blockType.None?
  }

  /** The `"text"` of a text mapping, or the string itself. */
  function BlockText(b: Block): Option<string>
  {
    match b
    case Str(s) => Some(s)
    case Dict(_, t, _) => t
  }

  /** The scan for the first text block of list content. A typeless mapping met before any
      text block raises KeyError("type"); a text mapping without `"text"` raises
      KeyError("text"); no text block at all gives None. */
  function FirstTextBlock(bs: seq<Block>): (r: Result<Option<string>, Error>)
    ensures r == Ok(None) <==> forall i :: 0 <= i < |bs| ==> !IsTextBlock(bs[i]) && !Typeless(bs[i])
    ensures r.Err? ==> r.error == MissingKey("type") || r.error == MissingKey("text")
    ensures r.Ok? && r.value.Some? ==>
              exists i :: 0 <= i < |bs| && IsTextBlock(bs[i]) && BlockText(bs[i]) == r.value
                          && forall j :: 0 <= j < i ==> !IsTextBlock(bs[j]) && !Typeless(bs[j])
  {
    if |bs| == 0 then Ok(None)
    else if IsTextBlock(bs[0]) then
      if BlockText(bs[0]).None? then Err(MissingKey("text")) else Ok(BlockText(bs[0]))
    else if Typeless(bs[0]) then Err(MissingKey("type"))
    else
      var r := FirstTextBlock(bs[1..]);
      assert forall i :: 1 <= i < |bs| ==> bs[i] == bs[1..][i - 1];
      if r.Ok? && r.value.Some? then
        ghost var i :| 0 <= i < |bs[1..]| && IsTextBlock(bs[1..][i]) && BlockText(bs[1..][i]) == r.value
                       && forall j :: 0 <= j < i ==> !IsTextBlock(bs[1..][j]) && !Typeless(bs[1..][j]);
        assert forall j :: 0 <= j < i + 1 ==> !IsTextBlock(bs[j]) && !Typeless(bs[j]) by {
          forall j | 0 <= j < i + 1 ensures !IsTextBlock(bs[j]) && !Typeless(bs[j]) {
            if j > 0 { assert bs[j] == bs[1..][j - 1]; }
          }
        }
        r
      else r
  }

  /** The scan is decided by the first block that is text or typeless: a typeless mapping
      raises KeyError("type"), a text mapping without `"text"` raises KeyError("text"), and
      otherwise that block's text is found. */
  lemma {:induction false} FirstTextBlockAt(bs: seq<Block>, i: nat)
    requires i < |bs|
    requires forall j :: 0 <= j < i ==> !IsTextBlock(bs[j]) && !Typeless(bs[j])
    ensures Typeless(bs[i]) ==> FirstTextBlock(bs) == Err(MissingKey("type"))
    ensures IsTextBlock(bs[i]) && BlockText(bs[i]).None? ==> FirstTextBlock(bs) == Err(MissingKey("text"))
    ensures IsTextBlock(bs[i]) && BlockText(bs[i]).Some? ==> FirstTextBlock(bs) == Ok(BlockText(bs[i]))
    decreases i
  {
    if i > 0 {
      assert !IsTextBlock(bs[0]) && !Typeless(bs[0]);
      forall j | 0 <= j < i - 1 ensures !IsTextBlock(bs[1..][j]) && !Typeless(bs[1..][j]) {
        assert bs[1..][j] == bs[j + 1];
      }
      FirstTextBlockAt(bs[1..], i - 1);
      assert bs[1..][i - 1] == bs[i];
    }
  }

  /** The text the fallback splits: the string content itself, or the first text block of
      list content. */
  function LeadingText(c: Content): (r: Result<Option<string>, Error>)
    ensures c.Text? ==> r == Ok(Some(c.s))
    ensures r.Err? ==> c.Blocks? && (r.error == MissingKey("type") || r.error == MissingKey("text"))
  {
    match c
    case Text(s) => Ok(Some(s))
    case Blocks(bs) => FirstTextBlock(bs)
  }

  /** `[{"type": "text", "text": t} for t in parts]` */
  function WrapText(parts: seq<string>): (bs: seq<Block>)
    ensures |bs| == |parts|
    ensures forall i :: 0 <= i < |parts| ==> bs[i] == Dict(Some("text"), Some(parts[i]), map[])
  {
    if |parts| == 0 then [] else [Dict(Some("text"), Some(parts[0]), map[])] + WrapText(parts[1..])
  }

  /** Wrapped parts are text blocks whose texts are the parts: the scan finds the first. */
  lemma WrapTextFirst(parts: seq<string>)
    requires |parts| > 0
    ensures FirstTextBlock(WrapText(parts)) == Ok(Some(parts[0]))
  {
  }

  /** The copy of `m` holding the first `j` units. */
  function Cut(m: Message, units: seq<Block>, j: nat): Message
    requires j <= |units|
  {
    WithContent(m, Blocks(units[..j]))
  }

  /** The drop loop: cut counts `hi` down to 1, stopping at the first whose copy fits after
      `prefix`; 0 when none does. */
  function LargestCut(prefix: seq<Message>, m: Message, units: seq<Block>, hi: nat, n: int,
                      counter: ListCounter): (j: nat)
    requires hi <= |units|
    ensures j <= hi
    ensures j > 0 ==> counter(prefix + [Cut(m, units, j)]) <= n
    ensures forall i :: j < i <= hi ==> n < counter(prefix + [Cut(m, units, i)])
    decreases hi
  {
    if hi == 0 then 0
    else if counter(prefix + [Cut(m, units, hi)]) <= n then hi
    else LargestCut(prefix, m, units, hi - 1, n, counter)
  }

  /** `for _ in range(1, len(units))`: only proper, non-empty cuts are tried. */
  function ProperCut(prefix: seq<Message>, m: Message, units: seq<Block>, n: int,
                     counter: ListCounter): (j: nat)
    ensures j < |units| || j == 0
    ensures j > 0 ==> counter(prefix + [Cut(m, units, j)]) <= n
    ensures forall i :: j < i < |units| ==> n < counter(prefix + [Cut(m, units, i)])
  {
    if |units| == 0 then 0 else LargestCut(prefix, m, units, |units| - 1, n, counter)
  }

  /** `c` is `m` holding a non-empty proper prefix of `units` as its content. */
  predicate HoldsProperPrefix(c: Message, m: Message, units: seq<Block>)
  {
    && SameExceptContent(c, m)
    && c.body.content.Blocks?
    && 0 < |c.body.content.blocks| < |units|
    && c.body.content.blocks == units[..|c.body.content.blocks|]
  }

  /** `c` is a partial copy of `m`: leading blocks of its list content, or leading pieces of
      its first text (string content or first text block) as split by `splitter`, each
      wrapped as a text block. */
  predicate IsPartialOf(c: Message, m: Message, splitter: string -> seq<string>)
  {
    || (m.body.content.Blocks? && HoldsProperPrefix(c, m, m.body.content.blocks))
    || (var t := LeadingText(m.body.content);
        t.Ok? && t.value.Some? && t.value.value != ""
        && HoldsProperPrefix(c, m, WrapText(splitter(t.value.value))))
  }

  /** Some proper, non-empty cut of `units` fits the budget after `prefix`. */
  predicate SomeCutFits(prefix: seq<Message>, m: Message, units: seq<Block>, n: int, counter: ListCounter)
  {
    exists j :: 0 < j < |units| && counter(prefix + [Cut(m, units, j)]) <= n
  }

  /** `c` is the cut of `units` with the most units among the proper cuts that fit. */
  predicate IsLargestCut(prefix: seq<Message>, m: Message, units: seq<Block>, n: int, counter: ListCounter,
                         c: Message)
  {
    && c.body.content.Blocks?
    && 0 < |c.body.content.blocks| < |units|
    && c == Cut(m, units, |c.body.content.blocks|)
    && counter(prefix + [c]) <= n
    && forall i :: |c.body.content.blocks| < i < |units| ==> n < counter(prefix + [Cut(m, units, i)])
  }

  /** The blocks of list content can be cut to fit. */
  predicate BlockCutFits(prefix: seq<Message>, m: Message, n: int, counter: ListCounter)
  {
    m.body.content.Blocks? && SomeCutFits(prefix, m, m.body.content.blocks, n, counter)
  }

  /** The non-empty leading text, split and wrapped, can be cut to fit. */
  predicate TextCutFits(prefix: seq<Message>, m: Message, n: int, counter: ListCounter,
                        splitter: string -> seq<string>)
  {
    var t := LeadingText(m.body.content);
    t.Ok? && t.value.Some? && t.value.value != ""
    && SomeCutFits(prefix, m, WrapText(splitter(t.value.value)), n, counter)
  }

  /** `c` is the copy partial truncation keeps: the largest fitting block cut when one
      exists, and otherwise the largest fitting cut of the split leading text. */
  predicate BestCut(prefix: seq<Message>, m: Message, n: int, counter: ListCounter,
                    splitter: string -> seq<string>, c: Message)
  {
    if BlockCutFits(prefix, m, n, counter) then IsLargestCut(prefix, m, m.body.content.blocks, n, counter, c)
    else
      var t := LeadingText(m.body.content);
      t.Ok? && t.value.Some? && t.value.value != ""
      && IsLargestCut(prefix, m, WrapText(splitter(t.value.value)), n, counter, c)
  }

  /** A largest fitting cut is a partial copy within the budget. */
  lemma BestCutIsPartial(prefix: seq<Message>, m: Message, n: int, counter: ListCounter,
                         splitter: string -> seq<string>, c: Message)
    requires BestCut(prefix, m, n, counter, splitter, c)
    ensures IsPartialOf(c, m, splitter) && counter(prefix + [c]) <= n
  {
  }

  /** The drop loop finds a cut exactly when some proper cut fits, and then the largest. */
  lemma ProperCutFinds(prefix: seq<Message>, m: Message, units: seq<Block>, n: int, counter: ListCounter)
    ensures ProperCut(prefix, m, units, n, counter) > 0 <==> SomeCutFits(prefix, m, units, n, counter)
    ensures ProperCut(prefix, m, units, n, counter) > 0 ==>
              IsLargestCut(prefix, m, units, n, counter, Cut(m, units, ProperCut(prefix, m, units, n, counter)))
  {
    var j := ProperCut(prefix, m, units, n, counter);
    if j > 0 {
      assert |Cut(m, units, j).body.content.blocks| == j;
    }
  }

  /** Truncating the message `m` that follows `prefix`: first by dropping trailing blocks,
      then, when that finds nothing, by splitting its first text. A copy is found exactly
      when some proper cut of either kind fits, and it is the best such cut; reading the
      first text can raise KeyError only when no block cut fits. */
  function PartialCopy(prefix: seq<Message>, m: Message, n: int, counter: ListCounter,
                       splitter: string -> seq<string>): (r: Result<Option<Message>, Error>)
    ensures r.Ok? && r.value.Some? ==> BestCut(prefix, m, n, counter, splitter, r.value.value)
    ensures r.Ok? ==> (r.value.Some? <==> BlockCutFits(prefix, m, n, counter)
                                          || TextCutFits(prefix, m, n, counter, splitter))
    ensures r.Err? <==> !BlockCutFits(prefix, m, n, counter) && LeadingText(m.body.content).Err?
    ensures r.Err? ==> r.error == LeadingText(m.body.content).error
  {
    var blocks := if m.body.content.Blocks? then m.body.content.blocks else [];
    var blockCut := ProperCut(prefix, m, blocks, n, counter);
    ProperCutFinds(prefix, m, blocks, n, counter);
    if blockCut > 0 then Ok(Some(Cut(m, blocks, blockCut)))
    else
      var text :- LeadingText(m.body.content);
      if text.None? || text.value == "" then Ok(None)
      else
        var units := WrapText(splitter(text.value));
        var j := ProperCut(prefix, m, units, n, counter);
        ProperCutFinds(prefix, m, units, n, counter);
        if j > 0 then Ok(Some(Cut(m, units, j))) else Ok(None)
  }

  /** The partial stage: it runs only when `allow_partial` is set and at least two messages
      were dropped; on success the working list is the prefix plus the copy, and the end
      index moves past the copy. Otherwise the list and index are unchanged. */
  function Truncate(ms: seq<Message>, idx: nat, n: int, counter: ListCounter, allowPartial: bool,
                    splitter: string -> seq<string>): (r: Result<(seq<Message>, nat), Error>)
    requires idx <= |ms|
    ensures r.Ok? ==> r.value.1 <= |r.value.0|
    ensures r.Ok? && r.value != (ms, idx) ==>
              && idx + 1 < |ms| && allowPartial
              && r.value.1 == idx + 1 && |r.value.0| == idx + 1
              && r.value.0[..idx] == ms[..idx]
              && IsPartialOf(r.value.0[idx], ms[idx], splitter)
              && counter(r.value.0) <= n
    ensures r.Err? ==> idx + 1 < |ms| && allowPartial
    ensures r.Err? ==> r.error == MissingKey("type") || r.error == MissingKey("text")
  {
    if idx + 1 < |ms| && allowPartial then
      var copy :- PartialCopy(ms[..idx], ms[idx], n, counter, splitter);
      if copy.Some? then
        var ws := ms[..idx] + [copy.value];
        assert ws[..idx] == ms[..idx] && ws[idx] == copy.value;
        Ok((ws, idx + 1))
      else Ok((ms, idx))
    else Ok((ms, idx))
  }

  /** The partial stage changes the list exactly when it applies and some block or text cut
      of the next message fits; the copy it appends is then the best cut. It fails exactly
      when it applies, no block cut fits and reading the first text raises. */
  lemma TruncateChoosesBestCut(ms: seq<Message>, idx: nat, n: int, counter: ListCounter, allowPartial: bool,
                               splitter: string -> seq<string>)
    requires idx <= |ms|
    ensures var r := Truncate(ms, idx, n, counter, allowPartial, splitter);
            && (r.Ok? && r.value != (ms, idx) ==> BestCut(ms[..idx], ms[idx], n, counter, splitter, r.value.0[idx]))
            && (r.Ok? ==> (r.value != (ms, idx) <==>
                             && idx + 1 < |ms| && allowPartial
                             && (BlockCutFits(ms[..idx], ms[idx], n, counter)
                                 || TextCutFits(ms[..idx], ms[idx], n, counter, splitter))))
            && (r.Err? <==> && idx + 1 < |ms| && allowPartial
                            && !BlockCutFits(ms[..idx], ms[idx], n, counter)
                            && LeadingText(ms[idx].body.content).Err?)
  {
    if idx + 1 < |ms| && allowPartial {
      var copy := PartialCopy(ms[..idx], ms[idx], n, counter, splitter);
      if copy.Ok? && copy.value.Some? {
        assert (ms[..idx] + [copy.value.value])[idx] == copy.value.value;
      }
    }
  }

  /** The `end_on` loop: move the end back until the message before it matches `spec`. */
  function Shrink(ws: seq<Message>, idx: nat, spec: TypeSpec): (k: nat)
    requires idx <= |ws|
    ensures k <= idx
    ensures k > 0 ==> Matches(ws[k - 1], spec)
    ensures forall j :: k <= j < idx ==> !Matches(ws[j], spec)
    decreases idx
  {
    if idx == 0 then 0
    else if Matches(ws[idx - 1], spec) then idx
    else Shrink(ws, idx - 1, spec)
  }

  /** Snapping the end to a type boundary. Only a single string or class is honoured; a
      list of types is ignored. The loop reads `ws[idx - 1]` before testing `idx > 0`, which
      at `idx == 0` reads the last element and raises IndexError only on an empty list. */
  function Snap(ws: seq<Message>, idx: nat, endOn: Boundary): (r: Result<nat, Error>)
    requires idx <= |ws|
    ensures r.Err? <==> endOn.Single? && |ws| == 0
    ensures r.Err? ==> r.error == IndexOutOfRange
    ensures r.Ok? ==> r.value <= idx
    ensures r.Ok? && !endOn.Single? ==> r.value == idx
    ensures r.Ok? && endOn.Single? && r.value > 0 ==> Matches(ws[r.value - 1], endOn.spec)
  {
    match endOn
    case Single(spec) => if |ws| == 0 then Err(IndexOutOfRange) else Ok(Shrink(ws, idx, spec))
    case _ => Ok(idx)
  }

  /** `r` is a prefix of `ms`, except that its last message may be a partial copy of the
      message of `ms` at that position. */
  predicate KeptPrefix(r: seq<Message>, ms: seq<Message>, splitter: string -> seq<string>)
  {
    && |r| <= |ms|
    && (|| r == ms[..|r|]
        || (|r| > 0 && r[..|r| - 1] == ms[..|r| - 1] && IsPartialOf(r[|r| - 1], ms[|r| - 1], splitter)))
  }

  /** `_first_n_tokens(messages, n_tokens, token_counter, allow_partial, end_on, text_splitter)` */
  function FirstNTokens(ms: seq<Message>, n: int, counter: ListCounter, allowPartial: bool,
                        endOn: Boundary, splitter: string -> seq<string>): (r: Result<seq<Message>, Error>)
    ensures r.Ok? ==> KeptPrefix(r.value, ms, splitter)
    ensures r == Err(IndexOutOfRange) <==> endOn.Single? && |ms| == 0
    ensures r.Err? ==> r.error in {IndexOutOfRange, MissingKey("type"), MissingKey("text")}
    ensures !allowPartial ==> (r.Err? <==> endOn.Single? && |ms| == 0)
    ensures r.Ok? && |r.value| > 0 && !endOn.Single? ==> counter(r.value) <= n
    ensures r.Ok? && endOn.Single? && |r.value| > 0 ==> Matches(r.value[|r.value| - 1], endOn.spec)
  {
    var idx := Search(ms, |ms|, n, counter);
    var t := Truncate(ms, idx, n, counter, allowPartial, splitter);
    if t.Err? then Err(t.error)
    else
      var w := t.value;
      var end := Snap(w.0, w.1, endOn);
      if end.Err? then Err(end.error)
      else
        KeptResult(ms, idx, n, counter, allowPartial, endOn, splitter, w, end.value);
        Ok(w.0[..end.value])
  }

  /** What a successful run of the three stages keeps: a kept prefix of a non-empty list (or
      of any list without a single `end_on`), within budget without a single `end_on`, and
      ending on a match with one. */
  lemma KeptResult(ms: seq<Message>, idx: nat, n: int, counter: ListCounter, allowPartial: bool,
                   endOn: Boundary, splitter: string -> seq<string>, w: (seq<Message>, nat), end: nat)
    requires idx <= |ms| && (idx > 0 ==> counter(ms[..idx]) <= n)
    requires Truncate(ms, idx, n, counter, allowPartial, splitter) == Ok(w)
    requires Snap(w.0, w.1, endOn) == Ok(end)
    ensures var r := w.0[..end];
            && KeptPrefix(r, ms, splitter)
            && !(endOn.Single? && |ms| == 0)
            && (|r| > 0 && !endOn.Single? ==> counter(r) <= n)
            && (endOn.Single? && |r| > 0 ==> Matches(r[|r| - 1], endOn.spec))
  {
    TruncatedPrefix(ms, idx, n, counter, allowPartial, splitter, w, end);
    assert |w.0| == 0 ==> |ms| == 0;
    if end > 0 {
      assert w.0[..end][end - 1] == w.0[end - 1];
    }
  }

  /** Any prefix of the working list after the partial stage is a kept prefix of the input,
      and the whole working prefix fits the budget when non-empty. */
  lemma TruncatedPrefix(ms: seq<Message>, idx: nat, n: int, counter: ListCounter, allowPartial: bool,
                        splitter: string -> seq<string>, w: (seq<Message>, nat), end: nat)
    requires idx <= |ms| && (idx > 0 ==> counter(ms[..idx]) <= n)
    requires Truncate(ms, idx, n, counter, allowPartial, splitter) == Ok(w)
    requires end <= w.1
    ensures KeptPrefix(w.0[..end], ms, splitter)
    ensures w.1 > 0 ==> counter(w.0[..w.1]) <= n
  {
    var r := w.0[..end];
    if w != (ms, idx) && end == idx + 1 {
      assert r == w.0;
    } else if w != (ms, idx) {
      assert r == ms[..end];
    }
    if w != (ms, idx) {
      assert w.0[..w.1] == w.0;
    }
  }

  /** The split `_first_n_tokens` uses by default: on newlines. */
  function DefaultTextSplitter(t: string): (parts: seq<string>)
    ensures |parts| >= 1
    ensures forall i :: 0 <= i < |parts| ==> '\n' !in parts[i]
  {
    Split(t, '\n')
  }

  /** Joining the default split with newlines gives back the text. */
  lemma DefaultTextSplitterRoundTrip(t: string)
    ensures Join(DefaultTextSplitter(t), '\n') == t
    ensures |DefaultTextSplitter(t)| == Count(t, '\n') + 1
  {
    JoinSplit(t, '\n');
    SplitCount(t, '\n');
  }

  /** With partial truncation off and no single `end_on`, the result is exactly the longest
      non-empty prefix within budget, or empty when no such prefix exists. */
  lemma FirstNPrefixSearch(ms: seq<Message>, n: int, counter: ListCounter, endOn: Boundary,
                           splitter: string -> seq<string>)
    requires !endOn.Single?
    ensures var r := FirstNTokens(ms, n, counter, false, endOn, splitter);
            r.Ok? && r.value == ms[..|r.value|] && LongestFit(ms, n, counter, |r.value|)
  {
    var idx := Search(ms, |ms|, n, counter);
    assert FirstNTokens(ms, n, counter, false, endOn, splitter) == Ok(ms[..idx]);
  }

  /** Partial truncation is never attempted when the search dropped at most one message:
      `allow_partial` then makes no difference. */
  lemma PartialNeedsTwoDropped(ms: seq<Message>, n: int, counter: ListCounter, k: nat, endOn: Boundary,
                               splitter: string -> seq<string>)
    requires LongestFit(ms, n, counter, k) && |ms| <= k + 1
    ensures FirstNTokens(ms, n, counter, true, endOn, splitter)
         == FirstNTokens(ms, n, counter, false, endOn, splitter)
  {
    LongestFitUnique(ms, n, counter, k, Search(ms, |ms|, n, counter));
  }

  /** The two results partial truncation can leave: the longest fitting prefix `r` of `ms`
      when no proper cut of the next message fits (or fewer than two messages were
      dropped), or the longest fitting prefix followed by the best cut of the next message,
      with the whole list within budget and at least one message after the copy dropped. */
  predicate PartialShape(r: seq<Message>, ms: seq<Message>, n: int, counter: ListCounter,
                         splitter: string -> seq<string>)
  {
    && |r| <= |ms|
    && (|| (&& r == ms[..|r|] && LongestFit(ms, n, counter, |r|)
            && !(&& |r| + 1 < |ms|
                 && (|| BlockCutFits(ms[..|r|], ms[|r|], n, counter)
                     || TextCutFits(ms[..|r|], ms[|r|], n, counter, splitter))))
        || (&& 0 < |r| < |ms|
            && LongestFit(ms, n, counter, |r| - 1)
            && r[..|r| - 1] == ms[..|r| - 1]
            && BestCut(ms[..|r| - 1], ms[|r| - 1], n, counter, splitter, r[|r| - 1])
            && IsPartialOf(r[|r| - 1], ms[|r| - 1], splitter)
            && counter(r) <= n))
  }

  /** With partial truncation on and no single `end_on`, the result has one of the two
      shapes of `PartialShape`. */
  lemma FirstNPartialShape(ms: seq<Message>, n: int, counter: ListCounter, endOn: Boundary,
                           splitter: string -> seq<string>)
    requires !endOn.Single?
    ensures var r := FirstNTokens(ms, n, counter, true, endOn, splitter);
            r.Ok? ==> PartialShape(r.value, ms, n, counter, splitter)
  {
    var idx := Search(ms, |ms|, n, counter);
    var w := Truncate(ms, idx, n, counter, true, splitter);
    TruncateChoosesBestCut(ms, idx, n, counter, true, splitter);
    if w.Ok? {
      FirstNUnfold(ms, n, counter, true, endOn, splitter);
      if w.value == (ms, idx) {
        PlainShape(ms, idx, n, counter, splitter);
      } else {
        CutShape(ms, idx, n, counter, splitter, w.value.0);
      }
    }
  }

  /** Without a single `end_on`, the result is the working prefix the partial stage leaves. */
  lemma FirstNUnfold(ms: seq<Message>, n: int, counter: ListCounter, allowPartial: bool, endOn: Boundary,
                     splitter: string -> seq<string>)
    requires !endOn.Single?
    ensures var w := Truncate(ms, Search(ms, |ms|, n, counter), n, counter, allowPartial, splitter);
            w.Ok? ==> FirstNTokens(ms, n, counter, allowPartial, endOn, splitter) == Ok(w.value.0[..w.value.1])
  {
  }

  /** The first shape of `FirstNPartialShape`, for the list the partial stage leaves alone. */
  lemma PlainShape(ms: seq<Message>, idx: nat, n: int, counter: ListCounter, splitter: string -> seq<string>)
    requires LongestFit(ms, n, counter, idx)
    requires !(idx + 1 < |ms| && (BlockCutFits(ms[..idx], ms[idx], n, counter)
                                  || TextCutFits(ms[..idx], ms[idx], n, counter, splitter)))
    ensures PartialShape(ms[..idx], ms, n, counter, splitter)
  {
    assert |ms[..idx]| == idx;
  }

  /** The second shape of `FirstNPartialShape`, for the list the partial stage builds. */
  lemma CutShape(ms: seq<Message>, idx: nat, n: int, counter: ListCounter, splitter: string -> seq<string>,
                 ws: seq<Message>)
    requires idx + 1 < |ms| && |ws| == idx + 1 && LongestFit(ms, n, counter, idx)
    requires ws[..idx] == ms[..idx]
    requires BestCut(ms[..idx], ms[idx], n, counter, splitter, ws[idx])
    requires IsPartialOf(ws[idx], ms[idx], splitter) && counter(ws) <= n
    ensures PartialShape(ws[..idx + 1], ms, n, counter, splitter)
  {
    assert ws[..idx + 1] == ws;
  }

  /** A list of types as `end_on` is ignored. */
  lemma SeveralBoundariesIgnored(ms: seq<Message>, n: int, counter: ListCounter, allowPartial: bool,
                                 specs: seq<TypeSpec>, splitter: string -> seq<string>)
    ensures FirstNTokens(ms, n, counter, allowPartial, Several(specs), splitter)
         == FirstNTokens(ms, n, counter, allowPartial, NoBoundary, splitter)
  {
  }

  /** A single `end_on` only shrinks the result it would otherwise have, to the longest
      prefix of it that ends on a matching message (or nothing); it fails exactly on an
      empty list. */
  lemma EndOnShrinks(ms: seq<Message>, n: int, counter: ListCounter, allowPartial: bool,
                     spec: TypeSpec, splitter: string -> seq<string>)
    ensures var u := FirstNTokens(ms, n, counter, allowPartial, NoBoundary, splitter);
            var r := FirstNTokens(ms, n, counter, allowPartial, Single(spec), splitter);
            && (r.Ok? <==> u.Ok? && |ms| > 0)
            && (r.Ok? ==> && r.value <= u.value
                          && (|r.value| > 0 ==> Matches(r.value[|r.value| - 1], spec))
                          && forall j :: |r.value| <= j < |u.value| ==> !Matches(u.value[j], spec))
  {
    var idx := Search(ms, |ms|, n, counter);
    var w := Truncate(ms, idx, n, counter, allowPartial, splitter);
    if w.Ok? && |ms| > 0 {
      var ws := w.value.0;
      var k := w.value.1;
      assert |ws| > 0;
      var end := Shrink(ws, k, spec);
      assert FirstNTokens(ms, n, counter, allowPartial, NoBoundary, splitter) == Ok(ws[..k]);
      assert FirstNTokens(ms, n, counter, allowPartial, Single(spec), splitter) == Ok(ws[..end]);
      ShrunkPrefix(ws, k, spec);
    }
  }

  /** The prefix the boundary loop keeps is a prefix of the one it starts from, and skips
      only non-matching messages. */
  lemma ShrunkPrefix(ws: seq<Message>, k: nat, spec: TypeSpec)
    requires k <= |ws|
    ensures var end := Shrink(ws, k, spec);
            && ws[..end] <= ws[..k]
            && (end > 0 ==> Matches(ws[..end][end - 1], spec))
            && forall j :: end <= j < k ==> !Matches(ws[..k][j], spec)
  {
    var end := Shrink(ws, k, spec);
    assert forall j :: end <= j < k ==> ws[..k][j] == ws[j];
    if end > 0 {
      assert ws[..end][end - 1] == ws[end - 1];
    }
  }

  /** A counter that never decreases when messages are appended. */
  ghost predicate PrefixMonotone(counter: ListCounter)
  {
    forall xs: seq<Message>, k: nat :: k <= |xs| ==> counter(xs[..k]) <= counter(xs)
  }

  /** For a prefix-monotone counter every non-empty result is within budget, `end_on` or
      not. */
  lemma FirstNWithinBudget(ms: seq<Message>, n: int, counter: ListCounter, allowPartial: bool,
                           endOn: Boundary, splitter: string -> seq<string>)
    requires PrefixMonotone(counter)
    ensures var r := FirstNTokens(ms, n, counter, allowPartial, endOn, splitter);
            r.Ok? && |r.value| > 0 ==> counter(r.value) <= n
  {
    var u := FirstNTokens(ms, n, counter, allowPartial, NoBoundary, splitter);
    var r := FirstNTokens(ms, n, counter, allowPartial, endOn, splitter);
    if endOn.Single? && r.Ok? && |r.value| > 0 {
      EndOnShrinks(ms, n, counter, allowPartial, endOn.spec, splitter);
      assert r.value == u.value[..|r.value|];
    }
  }

  /** Two counters that agree on non-empty lists agree on the search. */
  lemma {:induction false} SearchAgrees(ms: seq<Message>, hi: nat, n: int, c1: ListCounter, c2: ListCounter)
    requires hi <= |ms|
    requires forall xs: seq<Message> :: |xs| > 0 ==> c1(xs) == c2(xs)
    ensures Search(ms, hi, n, c1) == Search(ms, hi, n, c2)
    decreases hi
  {
    if hi > 0 {
      assert |ms[..hi]| > 0;
      SearchAgrees(ms, hi - 1, n, c1, c2);
    }
  }

  /** Two counters that agree on non-empty lists agree on the drop loop. */
  lemma {:induction false} LargestCutAgrees(prefix: seq<Message>, m: Message, units: seq<Block>, hi: nat,
                                            n: int, c1: ListCounter, c2: ListCounter)
    requires hi <= |units|
    requires forall xs: seq<Message> :: |xs| > 0 ==> c1(xs) == c2(xs)
    ensures LargestCut(prefix, m, units, hi, n, c1) == LargestCut(prefix, m, units, hi, n, c2)
    decreases hi
  {
    if hi > 0 {
      assert |prefix + [Cut(m, units, hi)]| > 0;
      LargestCutAgrees(prefix, m, units, hi - 1, n, c1, c2);
    }
  }

  /** Two counters that agree on non-empty lists agree on every proper cut. */
  lemma ProperCutAgrees(prefix: seq<Message>, m: Message, units: seq<Block>, n: int,
                        c1: ListCounter, c2: ListCounter)
    requires forall xs: seq<Message> :: |xs| > 0 ==> c1(xs) == c2(xs)
    ensures ProperCut(prefix, m, units, n, c1) == ProperCut(prefix, m, units, n, c2)
  {
    if |units| > 0 {
      LargestCutAgrees(prefix, m, units, |units| - 1, n, c1, c2);
    }
  }

  /** Two counters that agree on non-empty lists agree on the partial copy. */
  lemma PartialCopyAgrees(prefix: seq<Message>, m: Message, n: int, c1: ListCounter, c2: ListCounter,
                          splitter: string -> seq<string>)
    requires forall xs: seq<Message> :: |xs| > 0 ==> c1(xs) == c2(xs)
    ensures PartialCopy(prefix, m, n, c1, splitter) == PartialCopy(prefix, m, n, c2, splitter)
  {
    if m.body.content.Blocks? {
      ProperCutAgrees(prefix, m, m.body.content.blocks, n, c1, c2);
    }
    var t := LeadingText(m.body.content);
    if t.Ok? && t.value.Some? {
      ProperCutAgrees(prefix, m, WrapText(splitter(t.value.value)), n, c1, c2);
    }
  }

  /** The counter is never applied to the empty list: two counters that differ only there
      give the same result. */
  lemma EmptyListNeverCounted(ms: seq<Message>, n: int, c1: ListCounter, c2: ListCounter,
                              allowPartial: bool, endOn: Boundary, splitter: string -> seq<string>)
    requires forall xs: seq<Message> :: |xs| > 0 ==> c1(xs) == c2(xs)
    ensures FirstNTokens(ms, n, c1, allowPartial, endOn, splitter)
         == FirstNTokens(ms, n, c2, allowPartial, endOn, splitter)
  {
    SearchAgrees(ms, |ms|, n, c1, c2);
    var idx := Search(ms, |ms|, n, c1);
    if idx + 1 < |ms| {
      PartialCopyAgrees(ms[..idx], ms[idx], n, c1, c2, splitter);
    }
    assert Truncate(ms, idx, n, c1, allowPartial, splitter) == Truncate(ms, idx, n, c2, allowPartial, splitter);
  }
}

=== FILE: merge.dfy ===
/** `merge_message_runs`: a left fold that combines each message with the previous output
    when it is an instance of that output's class. */
module Merge {
  import opened Results
  import opened Messages
  import opened Chunks
  import opened Normalize

  /** The chunk `+` operator is defined outside this model and is a parameter here. In the
      source `a + b` on two chunks builds an instance of `a`'s class; results about kinds
      assume that much of it. */
  ghost predicate AddKeepsClass(add: (Message, Message) -> Message)
  {
    forall a: Message, b: Message :: a.chunk && b.chunk && a.kind == b.kind ==> add(a, b).chunk && add(a, b).kind == a.kind
  }

  /** `isinstance(curr, last.__class__)`: a chunk may join a preceding plain message of its
      family, but a plain message never joins a preceding chunk. */
  predicate JoinsLast(curr: Message, last: Message)
  {
    IsInstance(curr, ClassOf(last))
  }

  /** `_chunk_to_msg(_msg_to_chunk(last) + _msg_to_chunk(curr))` */
  function Combine(last: Message, curr: Message, add: (Message, Message) -> Message): (r: Result<Message, Error>)
    ensures r.Ok? <==> add(MsgToChunk(last), MsgToChunk(curr)).chunk
    ensures r.Ok? ==> !r.value.chunk && r.value.kind == add(MsgToChunk(last), MsgToChunk(curr)).kind
    ensures r.Ok? ==> r.value.body == add(MsgToChunk(last), MsgToChunk(curr)).body.(toolCallChunks := [])
  {
    ChunkToMsg(add(MsgToChunk(last), MsgToChunk(curr)))
  }

  /** The loop of `merge_message_runs` once `done` is settled, `last` is the entry the next
      iteration pops, and `rest` remains. */
  function MergeFrom(done: seq<Message>, last: Message, rest: seq<Message>, add: (Message, Message) -> Message)
    : (r: Result<seq<Message>, Error>)
    ensures r.Ok? ==> done <= r.value && |done| < |r.value| <= |done| + 1 + |rest|
    decreases |rest|
  {
    if |rest| == 0 then Ok(done + [last])
    else if !JoinsLast(rest[0], last) then MergeFrom(done + [last], rest[0], rest[1..], add)
    else
      var m :- Combine(last, rest[0], add);
      MergeFrom(done, m, rest[1..], add)
  }

  /** The fold over already-converted messages, seeded with the first one. */
  function MergeRuns(ms: seq<Message>, add: (Message, Message) -> Message): (r: Result<seq<Message>, Error>)
    ensures |ms| == 0 ==> r == Ok([])
    ensures r.Ok? && |ms| > 0 ==> 0 < |r.value| <= |ms|
  {
    if |ms| == 0 then Ok([]) else MergeFrom([], ms[0], ms[1..], add)
  }

  /** `merge_message_runs`: empty input gives an empty list before any conversion; otherwise
      convert and fold. */
  function MergeMessageRuns(likes: seq<MessageLike>, add: (Message, Message) -> Message)
    : (r: Result<seq<Message>, Error>)
    ensures |likes| == 0 ==> r == Ok([])
    ensures |likes| > 0 && ConvertToMessages(likes).Err? ==> r == Err(ConvertToMessages(likes).error)
    ensures r.Ok? ==> |r.value| <= |likes|
  {
    if |likes| == 0 then Ok([])
    else
      var ms :- ConvertToMessages(likes);
      MergeRuns(ms, add)
  }

  /** The kind of each message. */
  function Kinds(ms: seq<Message>): (ks: seq<Kind>)
    ensures |ks| == |ms|
  {
    if |ms| == 0 then [] else [ms[0].kind] + Kinds(ms[1..])
  }

  /** `ks` with each run of equal neighbours collapsed to one element. */
  function Collapse(ks: seq<Kind>): (r: seq<Kind>)
    ensures |ks| > 0 ==> |r| > 0 && r[0] == ks[0]
    decreases |ks|
  {
    if |ks| <= 1 then ks
    else if ks[0] == ks[1] then Collapse(ks[1..])
    else [ks[0]] + Collapse(ks[1..])
  }

  predicate NoEqualNeighbours(ks: seq<Kind>)
  {
    forall i :: 0 <= i < |ks| - 1 ==> ks[i] != ks[i + 1]
  }

  /** A collapsed sequence has no two equal neighbours. */
  lemma {:induction false} CollapseNoEqualNeighbours(ks: seq<Kind>)
    ensures NoEqualNeighbours(Collapse(ks))
    decreases |ks|
  {
    if |ks| > 1 {
      CollapseNoEqualNeighbours(ks[1..]);
      if ks[0] != ks[1] {
        var c := Collapse(ks[1..]);
        assert c[0] == ks[1];
        assert forall i :: 1 <= i < |c| ==> ([ks[0]] + c)[i] == c[i - 1];
      }
    }
  }

  /** Collapsing a sequence without equal neighbours changes nothing. */
  lemma {:induction false} CollapseIdentity(ks: seq<Kind>)
    requires NoEqualNeighbours(ks)
    ensures Collapse(ks) == ks
    decreases |ks|
  {
    if |ks| > 1 {
      assert NoEqualNeighbours(ks[1..]) by {
        forall i | 0 <= i < |ks| - 2 ensures ks[1..][i] != ks[1..][i + 1] {
          assert ks[1..][i] == ks[i + 1] && ks[1..][i + 1] == ks[i + 2];
        }
      }
      CollapseIdentity(ks[1..]);
      assert ks[0] != ks[1];
      assert [ks[0]] + ks[1..] == ks;
    }
  }

  predicate AllPlain(ms: seq<Message>)
  {
    forall i :: 0 <= i < |ms| ==> !ms[i].chunk
  }

  /** Collapsing after a repeated head is collapsing after one copy of it. */
  lemma CollapseRepeatedHead(k: Kind, t: seq<Kind>)
    ensures Collapse([k, k] + t) == Collapse([k] + t)
  {
    assert ([k, k] + t)[1..] == [k] + t;
  }

  /** A head different from its successor survives collapsing. */
  lemma CollapseDistinctHead(k: Kind, k': Kind, t: seq<Kind>)
    requires k != k'
    ensures Collapse([k, k'] + t) == [k] + Collapse([k'] + t)
  {
    assert ([k, k'] + t)[1..] == [k'] + t;
  }

  /** The kind sequence holds each message's kind at its position. */
  lemma {:induction false} KindsAt(ms: seq<Message>, i: nat)
    requires i < |ms|
    ensures Kinds(ms)[i] == ms[i].kind
    decreases i
  {
    if i > 0 {
      KindsAt(ms[1..], i - 1);
    }
  }

  lemma {:induction false} KindsAppend(xs: seq<Message>, m: Message)
    ensures Kinds(xs + [m]) == Kinds(xs) + [m.kind]
    decreases |xs|
  {
    if |xs| == 0 {
      assert xs + [m] == [m];
    } else {
      assert (xs + [m])[1..] == xs[1..] + [m];
      KindsAppend(xs[1..], m);
    }
  }

  lemma KindsCons(m: Message, xs: seq<Message>)
    ensures Kinds([m] + xs) == [m.kind] + Kinds(xs)
  {
    assert ([m] + xs)[1..] == xs;
  }

  lemma AllPlainTail(xs: seq<Message>)
    requires |xs| > 0 && AllPlain(xs)
    ensures AllPlain(xs[1..])
  {
    assert forall i :: 0 <= i < |xs| - 1 ==> xs[1..][i] == xs[i + 1];
  }

  /** Under `AddKeepsClass`, combining a message with one of its family succeeds and gives a
      plain message of that family. */
  lemma CombineKeepsKind(last: Message, curr: Message, add: (Message, Message) -> Message)
    requires AddKeepsClass(add) && curr.kind == last.kind
    ensures Combine(last, curr, add).Ok?
    ensures !Combine(last, curr, add).value.chunk && Combine(last, curr, add).value.kind == last.kind
  {
    var sum := add(MsgToChunk(last), MsgToChunk(curr));
    assert sum.chunk && sum.kind == last.kind;
  }

  /** The fold invariant for plain messages: the output's kinds are the settled kinds
      followed by the collapse of the last kind and the remaining kinds, and nothing fails. */
  lemma {:induction false} MergeFromKinds(done: seq<Message>, last: Message, rest: seq<Message>,
                                          add: (Message, Message) -> Message)
    requires AddKeepsClass(add)
    requires AllPlain(done) && !last.chunk && AllPlain(rest)
    ensures MergeFrom(done, last, rest, add).Ok?
    ensures AllPlain(MergeFrom(done, last, rest, add).value)
    ensures Kinds(MergeFrom(done, last, rest, add).value) == Kinds(done) + Collapse([last.kind] + Kinds(rest))
    decreases |rest|
  {
    var k := last.kind;
    if |rest| == 0 {
      KindsAppend(done, last);
    } else {
      var curr := rest[0];
      var tail := Kinds(rest[1..]);
      assert rest == [curr] + rest[1..];
      KindsCons(curr, rest[1..]);
      AllPlainTail(rest);
      if !JoinsLast(curr, last) {
        assert curr.kind != k;
        assert AllPlain(done + [last]);
        MergeFromKinds(done + [last], curr, rest[1..], add);
        KindsAppend(done, last);
        CollapseDistinctHead(k, curr.kind, tail);
        assert Kinds(done + [last]) + Collapse([curr.kind] + tail) == Kinds(done) + Collapse([k] + Kinds(rest));
      } else {
        CombineKeepsKind(last, curr, add);
        var m := Combine(last, curr, add).value;
        MergeFromKinds(done, m, rest[1..], add);
        CollapseRepeatedHead(k, tail);
      }
    }
  }

  /** For plain messages (and a `+` that keeps the left operand's class) the kinds of the
      merged list are the input's kinds with runs collapsed, so no two neighbours share a
      kind, and every output message is plain. */
  lemma MergeRunsCollapsesKinds(ms: seq<Message>, add: (Message, Message) -> Message)
    requires AddKeepsClass(add) && AllPlain(ms)
    ensures MergeRuns(ms, add).Ok?
    ensures AllPlain(MergeRuns(ms, add).value)
    ensures Kinds(MergeRuns(ms, add).value) == Collapse(Kinds(ms))
    ensures NoEqualNeighbours(Kinds(MergeRuns(ms, add).value))
  {
    if |ms| > 0 {
      assert AllPlain(ms[1..]) by {
        forall i | 0 <= i < |ms| - 1 ensures !ms[1..][i].chunk { assert ms[1..][i] == ms[i + 1]; }
      }
      MergeFromKinds([], ms[0], ms[1..], add);
      assert ms == [ms[0]] + ms[1..];
      KindsCons(ms[0], ms[1..]);
    }
    CollapseNoEqualNeighbours(Kinds(ms));
  }

  /** The entry point on inputs that normalise to plain messages (every input that is not
      already a message does): the merged kinds are the normalised kinds with runs collapsed,
      and the merge cannot fail. */
  lemma MergeMessageRunsCollapses(likes: seq<MessageLike>, add: (Message, Message) -> Message)
    requires AddKeepsClass(add)
    requires forall i :: 0 <= i < |likes| && likes[i].FromMessage? ==> !likes[i].m.chunk
    ensures var ms := ConvertToMessages(likes);
            var r := MergeMessageRuns(likes, add);
            && (r.Ok? <==> ms.Ok?)
            && (r.Ok? ==> Kinds(r.value) == Collapse(Kinds(ms.value)) && AllPlain(r.value))
  {
    var ms := ConvertToMessages(likes);
    if ms.Ok? {
      assert AllPlain(ms.value) by {
        forall i | 0 <= i < |ms.value| ensures !ms.value[i].chunk {
          assert ConvertToMessage(likes[i]) == Ok(ms.value[i]);
        }
      }
      MergeRunsCollapsesKinds(ms.value, add);
    }
  }

  /** A reference for merging one run: `first` combined with each message of `run` in turn,
      left to right. */
  function FoldRun(first: Message, run: seq<Message>, add: (Message, Message) -> Message): Result<Message, Error>
    decreases |run|
  {
    if |run| == 0 then Ok(first)
    else
      var m :- Combine(first, run[0], add);
      FoldRun(m, run[1..], add)
  }

  /** Every message of `run` has the kind `k`. */
  predicate RunOf(run: seq<Message>, k: Kind)
  {
    forall i :: 0 <= i < |run| ==> run[i].kind == k
  }

  lemma RunOfTail(run: seq<Message>, k: Kind)
    requires |run| > 0 && RunOf(run, k)
    ensures RunOf(run[1..], k)
  {
    assert forall i :: 0 <= i < |run| - 1 ==> run[1..][i] == run[i + 1];
  }

  /** A run of one family following a plain message of it is folded into that message with
      `+`, and the loop carries on at the first message of another family. */
  lemma {:induction false} MergeFromRun(done: seq<Message>, last: Message, run: seq<Message>, rest: seq<Message>,
                                        add: (Message, Message) -> Message)
    requires AddKeepsClass(add)
    requires !last.chunk && RunOf(run, last.kind)
    requires |rest| > 0 && rest[0].kind != last.kind
    ensures FoldRun(last, run, add).Ok?
    ensures MergeFrom(done, last, run + rest, add)
         == MergeFrom(done + [FoldRun(last, run, add).value], rest[0], rest[1..], add)
    decreases |run|
  {
    if |run| == 0 {
      assert run + rest == rest;
    } else {
      assert (run + rest)[0] == run[0] && (run + rest)[1..] == run[1..] + rest;
      assert JoinsLast(run[0], last);
      var m := Combine(last, run[0], add);
      assert m.Ok?;
      RunOfTail(run, last.kind);
      MergeFromRun(done, m.value, run[1..], rest, add);
    }
  }

  /** The final run is folded in the same way and closes the output. */
  lemma {:induction false} MergeFromLastRun(done: seq<Message>, last: Message, run: seq<Message>,
                                            add: (Message, Message) -> Message)
    requires AddKeepsClass(add)
    requires !last.chunk && RunOf(run, last.kind)
    ensures FoldRun(last, run, add).Ok?
    ensures MergeFrom(done, last, run, add) == Ok(done + [FoldRun(last, run, add).value])
    decreases |run|
  {
    if |run| > 0 {
      assert JoinsLast(run[0], last);
      var m := Combine(last, run[0], add);
      assert m.Ok?;
      RunOfTail(run, last.kind);
      MergeFromLastRun(done, m.value, run[1..], add);
    }
  }

  /** Two human messages followed by an AI message: the humans are replaced by the plain
      form of their sum, and the AI message is kept. */
  lemma MergeTwoThenOther(a: Message, b: Message, c: Message, add: (Message, Message) -> Message)
    requires AddKeepsClass(add)
    requires !a.chunk && !b.chunk && !c.chunk && a.kind == Human && b.kind == Human && c.kind == AI
    ensures Combine(a, b, add).Ok?
    ensures MergeRuns([a, b, c], add) == Ok([Combine(a, b, add).value, c])
  {
    var m := Combine(a, b, add).value;
    MergeFromRun([], a, [b], [c], add);
    assert [a, b, c][1..] == [b] + [c];
    assert FoldRun(a, [b], add) == FoldRun(m, [], add);
    assert FoldRun(a, [b], add) == Ok(m);
    assert [] + [m] == [m] && [c][1..] == [];
    assert MergeRuns([a, b, c], add) == MergeFrom([], a, [b] + [c], add);
    assert MergeRuns([a, b, c], add) == MergeFrom([m], c, [], add);
    assert [m] + [c] == [m, c];
  }

  /** No message of `xs` joins its predecessor. */
  predicate NoJoins(xs: seq<Message>)
  {
    forall i :: 0 < i < |xs| ==> !JoinsLast(xs[i], xs[i - 1])
  }

  /** When no message joins its predecessor, the fold leaves the list as it is. */
  lemma {:induction false} MergeFromNoJoins(done: seq<Message>, last: Message, rest: seq<Message>,
                                            add: (Message, Message) -> Message)
    requires NoJoins([last] + rest)
    ensures MergeFrom(done, last, rest, add) == Ok(done + [last] + rest)
    decreases |rest|
  {
    if |rest| == 0 {
      assert done + [last] + rest == done + [last];
    } else {
      var xs := [last] + rest;
      assert xs[1] == rest[0] && xs[0] == last;
      assert !JoinsLast(xs[1], xs[0]);
      assert NoJoins(rest) by {
        forall i | 0 < i < |rest| ensures !JoinsLast(rest[i], rest[i - 1]) {
          assert rest[i] == xs[i + 1] && rest[i - 1] == xs[i];
        }
      }
      assert rest == [rest[0]] + rest[1..];
      MergeFromNoJoins(done + [last], rest[0], rest[1..], add);
      assert MergeFrom(done, last, rest, add) == MergeFrom(done + [last], rest[0], rest[1..], add);
      assert (done + [last]) + [rest[0]] + rest[1..] == done + [last] + rest;
    }
  }

  /** Merging is idempotent on plain messages: the merged list has no neighbours of one
      kind, so merging it again changes nothing. */
  lemma MergeRunsIdempotent(ms: seq<Message>, add: (Message, Message) -> Message)
    requires AddKeepsClass(add) && AllPlain(ms)
    ensures MergeRuns(ms, add).Ok?
    ensures MergeRuns(MergeRuns(ms, add).value, add) == MergeRuns(ms, add)
  {
    MergeRunsCollapsesKinds(ms, add);
    var out := MergeRuns(ms, add).value;
    if |out| > 0 {
      var ks := Kinds(out);
      assert NoJoins(out) by {
        forall i | 0 < i < |out| ensures !JoinsLast(out[i], out[i - 1]) {
          KindsAt(out, i - 1);
          KindsAt(out, i);
          assert ks[i - 1] != ks[i];
        }
      }
      assert [out[0]] + out[1..] == out;
      MergeFromNoJoins([], out[0], out[1..], add);
      assert [] + [out[0]] + out[1..] == out;
    }
  }

  /** Merging is one-directional across the chunk subclass relation: a chunk following a
      plain message of its family is merged into it, but a plain message following a
      chunk of its family is kept separate. */
  lemma ChunkJoinsPlainButNotConversely(p: Message, c: Message, add: (Message, Message) -> Message)
    requires AddKeepsClass(add)
    requires !p.chunk && c.chunk && p.kind == c.kind
    ensures MergeRuns([p, c], add).Ok? && |MergeRuns([p, c], add).value| == 1
    ensures MergeRuns([c, p], add) == Ok([c, p])
  {
    assert [p, c][1..] == [c];
    assert [c, p][1..] == [p];
    assert MergeRuns([p, c], add) == MergeFrom([], Combine(p, c, add).value, [], add);
    assert NoJoins([c] + [p]);
    MergeFromNoJoins([], c, [p], add);
    assert [] + [c] + [p] == [c, p];
  }
}

=== FILE: messages.dfy ===
/** The message values every utility consumes and produces: six kinds of message, each as a
    plain class or as its streaming "chunk" subclass, with string or block-list content. */
module Messages {
  import opened Results

  /** The six message families: HumanMessage, AIMessage, SystemMessage, ChatMessage,
      FunctionMessage and ToolMessage. */
  datatype Kind = Human | AI | System | Chat | Function | Tool

  /** A concrete message class: `XMessage` when `chunk` is false, `XMessageChunk` when it is
      true. Each chunk class has its plain class as first base, so a chunk is also an
      instance of the plain class. */
  datatype MessageClass = MessageClass(kind: Kind, chunk: bool)

  /** One element of list content: a bare string, or a mapping whose `"type"` and `"text"`
      keys may be absent; `rest` holds its other keys. */
  datatype Block =
    | Str(s: string)
    | Dict(blockType: Option<string>, text: Option<string>, rest: map<string, string>)

  /** A message's content: a string, or a list of blocks. */
  datatype Content = Text(s: string) | Blocks(blocks: seq<Block>)

  /** A structured tool-call record, kept opaque. */
  datatype ToolCall = ToolCall(name: string, args: string, callId: Option<string>)

  /** The fields a message carries besides its class. `role` is read only for ChatMessage;
      `toolCallChunks` exists on AIMessageChunk only. The datatype does not enforce that:
      a value with `toolCallChunks` on any other class describes no Python object, and what
      a lemma says about such values says nothing about the source. Values in
      `additionalKwargs` are the rendered (`str()`) form of the Python values. */
  datatype Body = Body(
    content: Content,
    name: Option<string>,
    id: Option<string>,
    role: string,
    toolCallId: Option<string>,
    toolCalls: Option<seq<ToolCall>>,
    toolCallChunks: seq<ToolCall>,
    additionalKwargs: map<string, string>)

  datatype Message = Message(kind: Kind, chunk: bool, body: Body)

  /** The exceptions the utilities raise, one constructor per exception kind; one kind may
      be raised at several places (a missing key, an out-of-range index). */
  datatype Error =
    | UnexpectedMessageType      // ValueError: role string not in the role table
    | MissingRoleOrContent       // ValueError: message dict lacks role/type or content
    | UnsupportedMessageLike     // NotImplementedError: input of no accepted shape
    | DuplicateArgument          // TypeError: a dict key collides with `message_type`
    | UnexpectedSerializedType   // ValueError: serialised type label not recognised
    | MissingKey(key: string)    // KeyError
    | UnrecognizedChunkClass     // ValueError: `_chunk_to_msg` given a non-chunk
    | IncompatibleOptions        // ValueError: trim option not valid for the strategy
    | UnrecognizedStrategy       // ValueError: strategy other than "first"/"last"
    | IndexOutOfRange            // IndexError

  function ClassOf(m: Message): MessageClass
  {
    MessageClass(m.kind, m.chunk)
  }

  /** The `type` field of a message of class `c`: the short role name for plain classes,
      the class name for chunk classes. */
  function TypeLabel(c: MessageClass): (t: string)
    ensures |t| > 0
  {
    match c.kind
    case Human => if c.chunk then "HumanMessageChunk" else "human"
    case AI => if c.chunk then "AIMessageChunk" else "ai"
    case System => if c.chunk then "SystemMessageChunk" else "system"
    case Chat => if c.chunk then "ChatMessageChunk" else "chat"
    case Function => if c.chunk then "FunctionMessageChunk" else "function"
    case Tool => if c.chunk then "ToolMessageChunk" else "tool"
  }

  /** `msg.type` */
  function TypeOf(m: Message): string
  {
    TypeLabel(ClassOf(m))
  }

  /** Distinct classes have distinct type labels. */
  lemma TypeLabelInjective(c: MessageClass, d: MessageClass)
    ensures TypeLabel(c) == TypeLabel(d) <==> c == d
  {
  }

  /** `isinstance(m, c)`: the same family, and a chunk whenever `c` is a chunk class. */
  predicate IsInstance(m: Message, c: MessageClass)
  {
    m.kind == c.kind && (c.chunk ==> m.chunk)
  }

  /** A message type given either as a `type` string or as a message class. */
  datatype TypeSpec = ByLabel(typeName: string) | ByClass(cls: MessageClass)

  /** Whether `m` has the type `spec` names: equal `type` string, or `isinstance`. */
  predicate Matches(m: Message, spec: TypeSpec)
  {
    match spec
    case ByLabel(t) => TypeOf(m) == t
    case ByClass(c) => IsInstance(m, c)
  }

  /** A copy of `m` with its content replaced. */
  function WithContent(m: Message, c: Content): (r: Message)
    ensures r.body.content == c
    ensures r.kind == m.kind && r.chunk == m.chunk
    ensures SameExceptContent(r, m)
  {
    m.(body := m.body.(content := c))
  }

  /** `a` is `b` up to its content. */
  predicate SameExceptContent(a: Message, b: Message)
  {
    a.kind == b.kind && a.chunk == b.chunk && a.body.(content := b.body.content) == b.body
  }
}

=== FILE: normalize.dfy ===
/** Turning message-like values (messages, strings, `(role, content)` pairs and message
    dicts) into messages. */
module Normalize {
  import opened Results
  import opened Messages

  /** A message dict: its `"role"`, `"type"` and `"content"` entries, the keys that
      `_create_message_from_message_type` names as parameters, and every other key in
      `rest` (rendered values). */
  datatype MessageDict = MessageDict(
    role: Option<string>,
    msgType: Option<string>,
    content: Option<Content>,
    name: Option<string>,
    toolCallId: Option<string>,
    toolCalls: Option<seq<ToolCall>>,
    id: Option<string>,
    rest: map<string, string>)

  /** The accepted input shapes. `FromSequence` is any non-string sequence (list or tuple);
      its elements are strings or block lists. `Unsupported` is every other Python value. */
  datatype MessageLike =
    | FromMessage(m: Message)
    | FromString(s: string)
    | FromSequence(items: seq<Content>)
    | FromDict(d: MessageDict)
    | Unsupported

  /** The role table of `_create_message_from_message_type`. There is no entry for "chat". */
  function RoleKind(messageType: string): (k: Option<Kind>)
    ensures k.Some? ==> k.value != Chat
    ensures k.Some? <==> messageType in {"human", "user", "ai", "assistant", "system", "function", "tool"}
  {
    if messageType == "human" || messageType == "user" then Some(Human)
    else if messageType == "ai" || messageType == "assistant" then Some(AI)
    else if messageType == "system" then Some(System)
    else if messageType == "function" then Some(Function)
    else if messageType == "tool" then Some(Tool)
    else None
  }

  /** The role table accepts the `type` of every plain non-chat message and maps it back to
      that message's kind. */
  lemma RoleKindInvertsTypeLabel(k: Kind)
    requires k != Chat
    ensures RoleKind(TypeLabel(MessageClass(k, false))) == Some(k)
  {
  }

  /** `_create_message_from_message_type`: a plain message of the kind the role table gives,
      with the supplied content and optional fields; ValueError for any other role. */
  function CreateMessage(messageType: string, content: Content, name: Option<string>,
                         toolCallId: Option<string>, toolCalls: Option<seq<ToolCall>>,
                         id: Option<string>, additionalKwargs: map<string, string>)
    : (r: Result<Message, Error>)
    ensures r.Ok? <==> RoleKind(messageType).Some?
    ensures r.Err? ==> r.error == UnexpectedMessageType
    ensures r.Ok? ==>
      && Some(r.value.kind) == RoleKind(messageType)
      && !r.value.chunk
      && r.value.body.content == content
      && r.value.body.name == name && r.value.body.id == id
      && r.value.body.toolCallId == toolCallId && r.value.body.toolCalls == toolCalls
      && r.value.body.additionalKwargs == additionalKwargs
      && r.value.body.toolCallChunks == []
  {
    match RoleKind(messageType)
    case None => Err(UnexpectedMessageType)
    case Some(k) =>
      Ok(Message(k, false, Body(content, name, id, "", toolCallId, toolCalls, [], additionalKwargs)))
  }

  /** `_create_message_from_message_type(message_type, content)` with every optional
      argument left out. */
  function CreateSimple(messageType: string, content: Content): Result<Message, Error>
  {
    CreateMessage(messageType, content, None, None, None, None, map[])
  }

  /** The keyword arguments a dict hands on besides its role and content: its other keys,
      plus its `"type"` entry when the role came from `"role"` (only one of the two is
      popped). */
  function DictExtraKwargs(d: MessageDict): map<string, string>
  {
    if d.role.Some? && d.msgType.Some? then d.rest["type" := d.msgType.value] else d.rest
  }

  /** The role a dict names: its `"role"` entry, or its `"type"` entry when it has no
      `"role"`. */
  function DictRole(d: MessageDict): Option<string>
  {
    if d.role.Some? then d.role else d.msgType
  }

  /** The errors normalisation can raise. */
  predicate NormaliseError(e: Error)
  {
    e in {UnexpectedMessageType, MissingRoleOrContent, DuplicateArgument, UnsupportedMessageLike}
  }

  /** The body of a message built from a role and content alone. */
  function BareBody(content: Content): Body
  {
    Body(content, None, None, "", None, None, [], map[])
  }

  /** `_convert_to_message`, arm by arm in the source's order. */
  function ConvertToMessage(like: MessageLike): (r: Result<Message, Error>)
    ensures like.FromMessage? ==> r == Ok(like.m)
    ensures like.FromString? ==> r == Ok(Message(Human, false, BareBody(Text(like.s))))
    ensures like.FromSequence? && |like.items| != 2 ==> r == Err(UnsupportedMessageLike)
    ensures like.FromSequence? && |like.items| == 2 ==>
              && (r.Ok? <==> like.items[0].Text? && RoleKind(like.items[0].s).Some?)
              && (r.Err? ==> r.error == UnexpectedMessageType)
              && (r.Ok? ==> && Some(r.value.kind) == RoleKind(like.items[0].s)
                            && r.value.body == BareBody(like.items[1]))
    ensures like.FromDict? ==>
              (r == Err(MissingRoleOrContent) <==> like.d.content.None? || DictRole(like.d).None?)
    ensures like.FromDict? && like.d.content.Some? && DictRole(like.d).Some? ==>
              && (r.Ok? <==> RoleKind(DictRole(like.d).value).Some? && "message_type" !in like.d.rest)
              && ("message_type" in like.d.rest ==> r == Err(DuplicateArgument))
    ensures like.FromDict? && r.Ok? ==>
              && like.d.content == Some(r.value.body.content)
              && RoleKind(DictRole(like.d).value) == Some(r.value.kind)
              && r.value.body.name == like.d.name && r.value.body.id == like.d.id
              && r.value.body.toolCallId == like.d.toolCallId && r.value.body.toolCalls == like.d.toolCalls
              && r.value.body.additionalKwargs == DictExtraKwargs(like.d)
              && r.value.body.toolCallChunks == []
    ensures like.Unsupported? ==> r == Err(UnsupportedMessageLike)
    ensures r.Ok? && !like.FromMessage? ==> !r.value.chunk && r.value.kind != Chat
    ensures r.Err? ==> NormaliseError(r.error)
  {
    match like
    case FromMessage(m) => Ok(m)
    case FromString(s) => CreateSimple("human", Text(s))
    case FromSequence(items) =>
      if |items| == 2 then
        // A non-string first element never equals a role name.
        if items[0].Blocks? then Err(UnexpectedMessageType)
        else CreateSimple(items[0].s, items[1])
      else Err(UnsupportedMessageLike)
    case FromDict(d) =>
      if DictRole(d).None? then Err(MissingRoleOrContent)
      else if d.content.None? then Err(MissingRoleOrContent)
      else if "message_type" in d.rest then Err(DuplicateArgument)
      else
        CreateMessage(DictRole(d).value, d.content.value, d.name, d.toolCallId, d.toolCalls, d.id,
                      DictExtraKwargs(d))
    case Unsupported => Err(UnsupportedMessageLike)
  }

  /** `convert_to_messages`: a one-to-one, order-preserving conversion that stops at the
      first input that cannot be converted. */
  function ConvertToMessages(likes: seq<MessageLike>): (r: Result<seq<Message>, Error>)
    ensures r.Ok? <==> forall i :: 0 <= i < |likes| ==> ConvertToMessage(likes[i]).Ok?
    ensures r.Ok? ==> |r.value| == |likes|
                      && forall i :: 0 <= i < |likes| ==> ConvertToMessage(likes[i]) == Ok(r.value[i])
    ensures r.Err? ==> exists i :: 0 <= i < |likes| && ConvertToMessage(likes[i]) == Err(r.error)
                                   && forall j :: 0 <= j < i ==> ConvertToMessage(likes[j]).Ok?
    ensures r.Err? ==> NormaliseError(r.error)
  {
    MapAll(ConvertToMessage, likes)
  }

  /** Already-converted messages pass through unchanged. */
  lemma ConvertMessagesIdentity(ms: seq<Message>)
    ensures ConvertToMessages(seq(|ms|, i requires 0 <= i < |ms| => FromMessage(ms[i]))) == Ok(ms)
  {
    var likes := seq(|ms|, i requires 0 <= i < |ms| => FromMessage(ms[i]));
    var r := ConvertToMessages(likes);
    assert r.Ok?;
    assert r.value == ms;
  }

  /** A `(role, content)` pair and a `{"role": ..., "content": ...}` dict with nothing else
      normalise to the same message. */
  lemma PairAndDictAgree(role: string, content: Content)
    ensures ConvertToMessage(FromSequence([Text(role), content]))
         == ConvertToMessage(FromDict(MessageDict(Some(role), None, Some(content), None, None, None, None, map[])))
  {
  }

  /** Normalising the `(type, content)` pair of a plain non-chat message without optional
      fields gives back that message. */
  lemma PairRoundTrip(m: Message)
    requires !m.chunk && m.kind != Chat
    requires m.body == BareBody(m.body.content)
    ensures ConvertToMessage(FromSequence([Text(TypeOf(m)), m.body.content])) == Ok(m)
  {
    RoleKindInvertsTypeLabel(m.kind);
  }
}

=== FILE: results.dfy ===
/** Optional values and failure-compatible results, plus the all-or-first-error map that
    Python list comprehensions over a raising function behave like. */
module Results {

  datatype Option<+T> = None | Some(value: T)

  /** Either a value or the error the Python code would raise. Usable with `:-`. */
  datatype Result<+T, +E> = Ok(value: T) | Err(error: E) {

    predicate IsFailure() {
      Err?
    }

    function PropagateFailure<U>(): Result<U, E>
      requires Err?
    {
      Err(error)
    }

    function Extract(): T
      requires Ok?
    {
      value
    }
  }

  /** `[f(x) for x in xs]` where `f` may raise: every element converted in order, or the
      error of the first element that fails. */
  function MapAll<A, B(==), E(==)>(f: A -> Result<B, E>, xs: seq<A>): (r: Result<seq<B>, E>)
    ensures r.Ok? <==> forall i :: 0 <= i < |xs| ==> f(xs[i]).Ok?
    ensures r.Ok? ==> |r.value| == |xs| && forall i :: 0 <= i < |xs| ==> f(xs[i]) == Ok(r.value[i])
    ensures r.Err? ==> exists i :: 0 <= i < |xs| && f(xs[i]) == Err(r.error)
                                    && forall j :: 0 <= j < i ==> f(xs[j]).Ok?
  {
    if |xs| == 0 then Ok([])
    else
      match f(xs[0])
      case Err(e) => Err(e)
      case Ok(y) =>
        var rest := MapAll(f, xs[1..]);
        if rest.Err? then
          assert exists i :: 0 <= i < |xs| - 1 && f(xs[1..][i]) == Err(rest.error)
                                    && forall j :: 0 <= j < i ==> f(xs[1..][j]).Ok?;
          var i :| 0 <= i < |xs| - 1 && f(xs[1..][i]) == Err(rest.error)
                                    && forall j :: 0 <= j < i ==> f(xs[1..][j]).Ok?;
          assert f(xs[i + 1]) == Err(rest.error);
          assert forall j :: 0 <= j < i + 1 ==> f(xs[j]).Ok? by {
            forall j | 0 <= j < i + 1 ensures f(xs[j]).Ok? {
              if j > 0 { assert xs[j] == xs[1..][j - 1]; }
            }
          }
          Err(rest.error)
        else
          assert forall i :: 0 <= i < |xs| - 1 ==> f(xs[1..][i]) == Ok(rest.value[i]);
          Ok([y] + rest.value)
  }
}

=== FILE: seqs.dfy ===
/** Sequence helpers shared by the filter and the trimmer, including the Python slices
    whose meaning differs from the obvious reading. */
module Seqs {

  /** `a` can be obtained from `b` by deleting elements, keeping the order. */
  predicate IsSubsequence<T(==)>(a: seq<T>, b: seq<T>)
    decreases |b|
  {
    if |a| == 0 then true
    else if |b| == 0 then false
    else (a[0] == b[0] && IsSubsequence(a[1..], b[1..])) || IsSubsequence(a, b[1..])
  }

  /** `xs[::-1]`. Its elements are stated by `ReverseAt` and `ReversePointwise`, kept out of
      this contract so that every use of the reversal does not carry a quantifier. */
  function Reverse<T>(xs: seq<T>): (r: seq<T>)
    ensures |r| == |xs|
  {
    if |xs| == 0 then [] else [xs[|xs| - 1]] + Reverse(xs[..|xs| - 1])
  }

  /** Element `i` of the reversal is element `|xs| - 1 - i` of the list. */
  lemma {:induction false} ReverseAt<T>(xs: seq<T>, i: nat)
    requires i < |xs|
    ensures Reverse(xs)[i] == xs[|xs| - 1 - i]
    decreases |xs|
  {
    if i > 0 {
      var init := xs[..|xs| - 1];
      ReverseAt(init, i - 1);
      assert Reverse(xs)[i] == Reverse(init)[i - 1];
    }
  }

  /** Every element of the reversal, as `ReverseAt` states it for one. */
  lemma ReversePointwise<T>(xs: seq<T>)
    ensures forall i :: 0 <= i < |xs| ==> Reverse(xs)[i] == xs[|xs| - 1 - i]
  {
    forall i | 0 <= i < |xs| ensures Reverse(xs)[i] == xs[|xs| - 1 - i] {
      ReverseAt(xs, i);
    }
  }

  /** Reversing twice gives the list back. */
  lemma ReverseReverse<T>(xs: seq<T>)
    ensures Reverse(Reverse(xs)) == xs
  {
    var r := Reverse(Reverse(xs));
    forall i | 0 <= i < |xs| ensures r[i] == xs[i] {
      ReverseAt(Reverse(xs), i);
      ReverseAt(xs, |xs| - 1 - i);
    }
  }

  /** Reversing a prefix of the reversal gives a suffix. */
  lemma ReversePrefixIsSuffix<T>(xs: seq<T>, k: nat)
    requires k <= |xs|
    ensures Reverse(Reverse(xs)[..k]) == xs[|xs| - k..]
  {
    var ys := Reverse(xs)[..k];
    var l := Reverse(ys);
    var suffix := xs[|xs| - k..];
    assert |l| == |suffix| == k;
    assert forall i :: 0 <= i < k ==> l[i] == suffix[i] by {
      forall i | 0 <= i < k ensures l[i] == suffix[i] {
        ReverseAt(ys, i);
        ReverseAt(xs, k - 1 - i);
      }
    }
  }

  /** The reversal without its first element is the reversal of the list without its last. */
  lemma ReverseTail<T>(xs: seq<T>)
    requires |xs| > 0
    ensures Reverse(xs)[1..] == Reverse(xs[..|xs| - 1])
    ensures Reverse(xs)[0] == xs[|xs| - 1]
  {
    assert ([xs[|xs| - 1]] + Reverse(xs[..|xs| - 1]))[1..] == Reverse(xs[..|xs| - 1]);
  }

  /** A list that agrees with the reversal of `ms` except in its last element: reversed, its
      tail is a suffix of `ms` and its head stands where that last element came from. */
  lemma ReversedPartialShape<T>(rs: seq<T>, ms: seq<T>)
    requires |rs| > 0 && |rs| <= |ms|
    requires rs[..|rs| - 1] == Reverse(ms)[..|rs| - 1]
    ensures |Reverse(rs)| == |rs|
    ensures Reverse(rs)[1..] == ms[|ms| - |rs| + 1..]
    ensures Reverse(rs)[0] == rs[|rs| - 1] && ms[|ms| - |rs|] == Reverse(ms)[|rs| - 1]
  {
    ReversedTailShape(rs, ms);
    ReversedHeads(rs, ms);
  }

  /** The tail half of `ReversedPartialShape`. */
  lemma ReversedTailShape<T>(rs: seq<T>, ms: seq<T>)
    requires |rs| > 0 && |rs| <= |ms|
    requires rs[..|rs| - 1] == Reverse(ms)[..|rs| - 1]
    ensures Reverse(rs)[1..] == ms[|ms| - |rs| + 1..]
  {
    var j := |rs| - 1;
    var init := rs[..j];
    ReverseTail(rs);
    ReversePrefixIsSuffix(ms, j);
    assert Reverse(init) == Reverse(Reverse(ms)[..j]);
    assert |ms| - j == |ms| - |rs| + 1;
  }

  /** The head half of `ReversedPartialShape`: the first element of a reversal is the last
      element, and element `|rs| - 1` of the reversal of `ms` is element `|ms| - |rs|`. */
  lemma ReversedHeads<T>(rs: seq<T>, ms: seq<T>)
    requires 0 < |rs| <= |ms|
    ensures Reverse(rs)[0] == rs[|rs| - 1] && ms[|ms| - |rs|] == Reverse(ms)[|rs| - 1]
  {
    ReverseAt(rs, 0);
    ReverseAt(ms, |rs| - 1);
  }

  /** `xs[:n]` for `n >= 0`: Python clamps the bound to the length. */
  function Take<T>(xs: seq<T>, n: nat): (r: seq<T>)
    ensures |r| == if n <= |xs| then n else |xs|
    ensures r <= xs
  {
    if n <= |xs| then xs[..n] else xs
  }

  /** `xs[1::-1]`: the elements at indices 1 and then 0, with the start index clamped to the
      last element. For two or more elements that is `[xs[1], xs[0]]`; otherwise the list
      itself. It is NOT the reverse of `xs[1:]`. */
  function PyRev1<T>(xs: seq<T>): (r: seq<T>)
    ensures |r| == if |xs| >= 2 then 2 else |xs|
    ensures |xs| >= 2 ==> r == [xs[1], xs[0]]
    ensures |xs| < 2 ==> r == xs
  {
    if |xs| >= 2 then [xs[1], xs[0]] else xs
  }
}

=== FILE: serialization.dfy ===
/** Rebuilding messages from their serialised `{"type": ..., "data": {...}}` form. */
module Serialization {
  import opened Results
  import opened Messages

  /** A serialised message dict: its `"type"` and `"data"` entries, either of which may be
      missing. `data` holds the constructor's keyword arguments. */
  datatype Serialized = Serialized(msgType: Option<string>, data: Option<Body>)

  /** The dispatch table of `_message_from_dict`: the twelve recognised labels in the order
      the source tests them. */
  function ClassOfLabel(t: string): (c: Option<MessageClass>)
  {
    if t == "human" then Some(MessageClass(Human, false))
    else if t == "ai" then Some(MessageClass(AI, false))
    else if t == "system" then Some(MessageClass(System, false))
    else if t == "chat" then Some(MessageClass(Chat, false))
    else if t == "function" then Some(MessageClass(Function, false))
    else if t == "tool" then Some(MessageClass(Tool, false))
    else if t == "AIMessageChunk" then Some(MessageClass(AI, true))
    else if t == "HumanMessageChunk" then Some(MessageClass(Human, true))
    else if t == "FunctionMessageChunk" then Some(MessageClass(Function, true))
    else if t == "ToolMessageChunk" then Some(MessageClass(Tool, true))
    else if t == "SystemMessageChunk" then Some(MessageClass(System, true))
    else if t == "ChatMessageChunk" then Some(MessageClass(Chat, true))
    else None
  }

  /** The dispatch table recognises exactly the `type` labels of the twelve classes, and
      maps each to the class that carries it. */
  lemma ClassOfLabelInvertsTypeLabel(t: string, c: MessageClass)
    ensures ClassOfLabel(TypeLabel(c)) == Some(c)
    ensures ClassOfLabel(t) == Some(c) <==> TypeLabel(c) == t
  {
    match c.kind
    case Human =>
    case AI =>
    case System =>
    case Chat =>
    case Function =>
    case Tool =>
  }

  /** `_message_from_dict`: `message["type"]` is read first (KeyError if absent), an unknown
      label raises ValueError, and only then is `message["data"]` read. */
  function MessageFromDict(s: Serialized): (r: Result<Message, Error>)
    ensures s.msgType.None? ==> r == Err(MissingKey("type"))
    ensures r.Ok? ==> s.msgType == Some(TypeOf(r.value)) && s.data == Some(r.value.body)
    ensures r == Err(UnexpectedSerializedType) <==>
              s.msgType.Some? && forall c :: TypeLabel(c) != s.msgType.value
    ensures s.msgType.Some? && s.data.Some? && (exists c :: TypeLabel(c) == s.msgType.value) ==> r.Ok?
    ensures s.msgType.Some? && s.data.None? && (exists c :: TypeLabel(c) == s.msgType.value) ==>
              r == Err(MissingKey("data"))
  {
    if s.msgType.None? then Err(MissingKey("type"))
    else
      var t := s.msgType.value;
      match ClassOfLabel(t)
      case None =>
        assert forall c :: TypeLabel(c) != t by {
          forall c ensures TypeLabel(c) != t { ClassOfLabelInvertsTypeLabel(t, c); }
        }
        Err(UnexpectedSerializedType)
      case Some(c) =>
        ClassOfLabelInvertsTypeLabel(t, c);
        if s.data.None? then Err(MissingKey("data"))
        else Ok(Message(c.kind, c.chunk, s.data.value))
  }

  /** `messages_from_dict`: one message per dict, in order, or the first dict's error. */
  function MessagesFromDict(xs: seq<Serialized>): (r: Result<seq<Message>, Error>)
    ensures r.Ok? <==> forall i :: 0 <= i < |xs| ==> MessageFromDict(xs[i]).Ok?
    ensures r.Ok? ==> |r.value| == |xs| && forall i :: 0 <= i < |xs| ==> MessageFromDict(xs[i]) == Ok(r.value[i])
  {
    MapAll(MessageFromDict, xs)
  }

  /** The serialised form of a message: its `type` label and its fields. */
  function Serialize(m: Message): Serialized
  {
    Serialized(Some(TypeOf(m)), Some(m.body))
  }

  /** Every message of each of the twelve classes survives serialisation. */
  lemma SerializeRoundTrip(m: Message)
    ensures MessageFromDict(Serialize(m)) == Ok(m)
  {
    ClassOfLabelInvertsTypeLabel(TypeOf(m), ClassOf(m));
  }

  /** The serialised form of each message of a list, in order. */
  function SerializeAll(ms: seq<Message>): (xs: seq<Serialized>)
    ensures |xs| == |ms| && forall i :: 0 <= i < |ms| ==> xs[i] == Serialize(ms[i])
  {
    if |ms| == 0 then [] else [Serialize(ms[0])] + SerializeAll(ms[1..])
  }

  /** A whole list survives serialisation. */
  lemma SerializeAllRoundTrip(ms: seq<Message>)
    ensures MessagesFromDict(SerializeAll(ms)) == Ok(ms)
  {
    var xs := SerializeAll(ms);
    forall i | 0 <= i < |ms| ensures MessageFromDict(xs[i]) == Ok(ms[i]) {
      SerializeRoundTrip(ms[i]);
    }
    var r := MessagesFromDict(xs);
    assert r.value == ms;
  }
}

=== FILE: text.dfy ===
/** Python's `str.split(sep)` and `sep.join(parts)` for a one-character separator. Both the
    buffer renderer (`"\n".join`) and the default text splitter (`text.split("\n")`) use them. */
module Text {

  /** `s.split(sep)`: the maximal runs between separators, in order. Never empty:
      `"".split("\n") == [""]` and a trailing separator yields a trailing `""`. */
  function Split(s: string, sep: char): (parts: seq<string>)
    ensures |parts| >= 1
    ensures forall i :: 0 <= i < |parts| ==> sep !in parts[i]
    decreases |s|
  {
    if |s| == 0 then [""]
    else
      var rest := Split(s[1..], sep);
      if s[0] == sep then [""] + rest
      else [[s[0]] + rest[0]] + rest[1..]
  }

  /** `sep.join(parts)`; the empty list joins to the empty string. */
  function Join(parts: seq<string>, sep: char): string
  {
    if |parts| == 0 then ""
    else if |parts| == 1 then parts[0]
    else parts[0] + [sep] + Join(parts[1..], sep)
  }

  /** Number of occurrences of `c` in `s`. */
  function Count(s: string, c: char): nat
  {
    if |s| == 0 then 0 else (if s[0] == c then 1 else 0) + Count(s[1..], c)
  }

  /** Splitting and re-joining on the same separator gives back the text. */
  lemma {:induction false} JoinSplit(s: string, sep: char)
    ensures Join(Split(s, sep), sep) == s
    decreases |s|
  {
    if |s| > 0 {
      var rest := Split(s[1..], sep);
      JoinSplit(s[1..], sep);
      if s[0] == sep {
        assert Split(s, sep) == [""] + rest;
        if |rest| == 1 {
          assert Join([""] + rest, sep) == "" + [sep] + rest[0];
        } else {
          assert ([""] + rest)[1..] == rest;
        }
      } else {
        var parts := [[s[0]] + rest[0]] + rest[1..];
        assert Split(s, sep) == parts;
        if |rest| == 1 {
          assert Join(parts, sep) == [s[0]] + rest[0];
          assert Join(rest, sep) == rest[0];
        } else {
          assert parts[1..] == rest[1..];
          assert Join(rest, sep) == rest[0] + [sep] + Join(rest[1..], sep);
        }
        assert s == [s[0]] + s[1..];
      }
    }
  }

  /** Joining parts that do not contain the separator and splitting again gives back the
      parts: the rendered lines of a buffer can be recovered when no line holds `sep`. */
  lemma {:induction false} SplitJoin(parts: seq<string>, sep: char)
    requires |parts| >= 1
    requires forall i :: 0 <= i < |parts| ==> sep !in parts[i]
    ensures Split(Join(parts, sep), sep) == parts
    decreases |parts|
  {
    if |parts| == 1 {
      SplitNoSep(parts[0], sep);
    } else {
      SplitJoin(parts[1..], sep);
      SplitAfterSep(parts[0], Join(parts[1..], sep), sep);
      assert [parts[0]] + parts[1..] == parts;
    }
  }

  /** A text with no separator splits into itself. */
  lemma {:induction false} SplitNoSep(s: string, sep: char)
    requires sep !in s
    ensures Split(s, sep) == [s]
    decreases |s|
  {
    if |s| > 0 {
      assert sep !in s[1..] by {
        forall k | 0 <= k < |s| - 1 ensures s[1..][k] != sep { assert s[1..][k] == s[k + 1]; }
      }
      SplitNoSep(s[1..], sep);
      assert s == [s[0]] + s[1..];
    }
  }

  /** Splitting `a + [sep] + b`, where `a` holds no separator, yields `a` followed by the
      parts of `b`. */
  lemma {:induction false} SplitAfterSep(a: string, b: string, sep: char)
    requires sep !in a
    ensures Split(a + [sep] + b, sep) == [a] + Split(b, sep)
    decreases |a|
  {
    if |a| == 0 {
      assert a + [sep] + b == [sep] + b;
      assert ([sep] + b)[1..] == b;
    } else {
      var s := a + [sep] + b;
      assert s[0] == a[0];
      assert s[1..] == a[1..] + [sep] + b;
      assert sep !in a[1..] by {
        forall k | 0 <= k < |a| - 1 ensures a[1..][k] != sep { assert a[1..][k] == a[k + 1]; }
      }
      SplitAfterSep(a[1..], b, sep);
      assert [a[0]] + a[1..] == a;
    }
  }

  /** `s.split(sep)` has one more part than `s` has separators. */
  lemma {:induction false} SplitCount(s: string, sep: char)
    ensures |Split(s, sep)| == Count(s, sep) + 1
    decreases |s|
  {
    if |s| > 0 {
      SplitCount(s[1..], sep);
    }
  }
}

=== FILE: trim.dfy ===
/** `trim_messages` and `_last_n_tokens`: option checks, the choice of list counter, and the
    "last" strategy built from the "first" one by reversing the list. */
module Trim {
  import opened Results
  import opened Messages
  import opened Normalize
  import opened Seqs
  import opened FirstN

  /** The `token_counter` argument: a count per message or a count per list. The source
      tells them apart by the annotation of the counter's first parameter. */
  datatype TokenCounter = PerMessage(count: Message -> int) | PerList(countList: seq<Message> -> int)

  /** `sum(token_counter(msg) for msg in messages)` */
  function SumCounts(count: Message -> int, ms: seq<Message>): int
  {
    if |ms| == 0 then 0 else SumCounts(count, ms[..|ms| - 1]) + count(ms[|ms| - 1])
  }

  /** The list counter the trimmer uses: a per-message counter is summed over the list. */
  function ListCounterOf(tc: TokenCounter): ListCounter
  {
    match tc
    case PerMessage(count) => (xs: seq<Message>) => SumCounts(count, xs)
    case PerList(f) => f
  }

  /** The lifted counter of the empty list is 0, and appending a message adds its count. */
  lemma ListCounterOfSums(count: Message -> int, xs: seq<Message>, m: Message)
    ensures ListCounterOf(PerMessage(count))([]) == 0
    ensures ListCounterOf(PerMessage(count))(xs + [m]) == ListCounterOf(PerMessage(count))(xs) + count(m)
  {
    assert (xs + [m])[..|xs|] == xs;
  }

  /** The sum over a concatenation is the sum of the sums. */
  lemma {:induction false} SumCountsAppend(count: Message -> int, xs: seq<Message>, ys: seq<Message>)
    ensures SumCounts(count, xs + ys) == SumCounts(count, xs) + SumCounts(count, ys)
    decreases |ys|
  {
    if |ys| > 0 {
      var ys' := ys[..|ys| - 1];
      assert (xs + ys)[..|xs + ys| - 1] == xs + ys';
      SumCountsAppend(count, xs, ys');
    } else {
      assert xs + ys == xs;
    }
  }

  /** The sum does not depend on the order of the list. */
  lemma {:induction false} SumCountsReverse(count: Message -> int, xs: seq<Message>)
    ensures SumCounts(count, Reverse(xs)) == SumCounts(count, xs)
    decreases |xs|
  {
    if |xs| > 0 {
      var init := xs[..|xs| - 1];
      var last := xs[|xs| - 1];
      SumCountsReverse(count, init);
      SumCountsAppend(count, [last], Reverse(init));
      assert SumCounts(count, [last]) == count(last) by {
        assert [last][..0] == [];
      }
    }
  }

  /** With non-negative counts, the lifted counter never decreases as the list grows. */
  lemma SumCountsMonotone(count: Message -> int)
    requires forall m :: count(m) >= 0
    ensures PrefixMonotone(ListCounterOf(PerMessage(count)))
  {
    forall xs: seq<Message>, k: nat | k <= |xs|
      ensures SumCounts(count, xs[..k]) <= SumCounts(count, xs)
    {
      SumCountsNonNegative(count, xs[k..]);
      SumCountsAppend(count, xs[..k], xs[k..]);
      assert xs[..k] + xs[k..] == xs;
    }
  }

  lemma {:induction false} SumCountsNonNegative(count: Message -> int, xs: seq<Message>)
    requires forall m :: count(m) >= 0
    ensures SumCounts(count, xs) >= 0
    decreases |xs|
  {
    if |xs| > 0 {
      SumCountsNonNegative(count, xs[..|xs| - 1]);
    }
  }

  /** `isinstance(messages[0], SystemMessage)` on a non-empty list. */
  predicate StartsWithSystem(ms: seq<Message>)
  {
    |ms| > 0 && IsInstance(ms[0], MessageClass(System, false))
  }

  /** `_last_n_tokens`. With `keep_system` and a leading system message the working list is
      `messages[:1] + messages[1::-1]` and the result `r[:1] + r[1::-1]`; otherwise both are
      plain reversals. With `keep_system`, reading `messages[0]` of an empty list raises
      IndexError. */
  function LastNTokens(ms: seq<Message>, n: int, counter: ListCounter, allowPartial: bool,
                       keepSystem: bool, startOn: Boundary): (r: Result<seq<Message>, Error>)
    ensures r.Err? ==> r.error in {IndexOutOfRange, MissingKey("type"), MissingKey("text")}
    ensures !allowPartial ==> (r.Err? <==> |ms| == 0 && (keepSystem || startOn.Single?))
  {
    if keepSystem && |ms| == 0 then Err(IndexOutOfRange)
    else
      var swapped := keepSystem && StartsWithSystem(ms);
      var work := if swapped then ms[..1] + PyRev1(ms) else Reverse(ms);
      var rs :- FirstNTokens(work, n, counter, allowPartial, startOn, DefaultTextSplitter);
      Ok(if swapped then Take(rs, 1) + PyRev1(rs) else Reverse(rs))
  }

  /** `r` is a suffix of `ms`, except that its first message may be a partial copy of the
      message of `ms` at that position. */
  predicate KeptSuffix(r: seq<Message>, ms: seq<Message>)
  {
    && |r| <= |ms|
    && (|| r == ms[|ms| - |r|..]
        || (|r| > 0 && r[1..] == ms[|ms| - |r| + 1..]
            && IsPartialOf(r[0], ms[|ms| - |r|], DefaultTextSplitter)))
  }

  /** Reversing a kept prefix of the reversal gives a kept suffix. */
  lemma ReversedKeptPrefix(rs: seq<Message>, ms: seq<Message>)
    requires KeptPrefix(rs, Reverse(ms), DefaultTextSplitter)
    ensures KeptSuffix(Reverse(rs), ms)
  {
    var rev := Reverse(ms);
    var k := |rs|;
    if rs == rev[..k] {
      ReversePrefixIsSuffix(ms, k);
    } else {
      ReversedPartialPrefix(rs, ms);
    }
  }

  /** The case of a kept prefix that ends in a partial copy: reversed, the copy comes first. */
  lemma ReversedPartialPrefix(rs: seq<Message>, ms: seq<Message>)
    requires |rs| > 0 && |rs| <= |ms|
    requires rs[..|rs| - 1] == Reverse(ms)[..|rs| - 1]
    requires IsPartialOf(rs[|rs| - 1], Reverse(ms)[|rs| - 1], DefaultTextSplitter)
    ensures KeptSuffix(Reverse(rs), ms)
  {
    ReversedPartialShape(rs, ms);
    KeptSuffixFromParts(Reverse(rs), ms, |rs|, rs[|rs| - 1], Reverse(ms)[|rs| - 1]);
  }

  /** A list of `k` messages whose first message `c` is a partial copy of `orig`, the message
      of `ms` at its position, and whose other messages end `ms`, is a kept suffix of `ms`. */
  lemma KeptSuffixFromParts(t: seq<Message>, ms: seq<Message>, k: nat, c: Message, orig: Message)
    requires |t| == k && 0 < k <= |ms|
    requires t[1..] == ms[|ms| - k + 1..]
    requires t[0] == c && ms[|ms| - k] == orig
    requires IsPartialOf(c, orig, DefaultTextSplitter)
    ensures KeptSuffix(t, ms)
  {
  }

  /** Without `keep_system` the "last" strategy keeps a suffix (its first message possibly a
      partial copy), begins on a single `start_on` type when one is given, and fits the
      budget as the counter sees it, in reversed order, when no single `start_on` is given. */
  lemma LastNKeepsSuffix(ms: seq<Message>, n: int, counter: ListCounter, allowPartial: bool,
                         startOn: Boundary)
    ensures var r := LastNTokens(ms, n, counter, allowPartial, false, startOn);
            r.Ok? ==> && KeptSuffix(r.value, ms)
                      && (startOn.Single? && |r.value| > 0 ==> Matches(r.value[0], startOn.spec))
                      && (!startOn.Single? && |r.value| > 0 ==> counter(Reverse(r.value)) <= n)
  {
    var f := FirstNTokens(Reverse(ms), n, counter, allowPartial, startOn, DefaultTextSplitter);
    if f.Ok? {
      assert LastNTokens(ms, n, counter, allowPartial, false, startOn) == Ok(Reverse(f.value));
      ReversedKeptPrefix(f.value, ms);
      ReverseReverse(f.value);
    }
  }

  /** Without partial truncation, `keep_system` or a single `start_on`, the "last" strategy
      keeps exactly the longest non-empty suffix within budget (as the counter sees it, in
      reversed order), or nothing when no such suffix exists. */
  lemma LastNLongestSuffix(ms: seq<Message>, n: int, counter: ListCounter, startOn: Boundary)
    requires !startOn.Single?
    ensures var r := LastNTokens(ms, n, counter, false, false, startOn);
            r.Ok? && r.value == ms[|ms| - |r.value|..] && LongestFit(Reverse(ms), n, counter, |r.value|)
  {
    var rev := Reverse(ms);
    FirstNPrefixSearch(rev, n, counter, startOn, DefaultTextSplitter);
    var f := FirstNTokens(rev, n, counter, false, startOn, DefaultTextSplitter).value;
    assert LastNTokens(ms, n, counter, false, false, startOn) == Ok(Reverse(f));
    ReversePrefixIsSuffix(ms, |f|);
  }

  /** Without `keep_system` the "last" strategy is "first" on the reversed list, with
      `start_on` as its `end_on`, reversed back: it fails exactly when that does, with the
      same error. */
  lemma LastNReversesFirst(ms: seq<Message>, n: int, counter: ListCounter, allowPartial: bool,
                           startOn: Boundary)
    ensures var f := FirstNTokens(Reverse(ms), n, counter, allowPartial, startOn, DefaultTextSplitter);
            var r := LastNTokens(ms, n, counter, allowPartial, false, startOn);
            && (r.Ok? <==> f.Ok?)
            && (r.Ok? ==> Reverse(r.value) == f.value)
            && (r.Err? ==> r.error == f.error)
  {
    var f := FirstNTokens(Reverse(ms), n, counter, allowPartial, startOn, DefaultTextSplitter);
    if f.Ok? {
      ReverseReverse(f.value);
    }
  }

  /** With partial truncation, no `keep_system` and no single `start_on`, the "last"
      strategy keeps a suffix whose first message may be a cut, and reversed, the result is
      one of the two shapes of `PartialShape` on the reversed list: the longest suffix
      within budget (counted in reversed order) when no cut of the message before it fits,
      otherwise that suffix preceded by the best fitting cut of the message before it. */
  lemma LastNPartialShape(ms: seq<Message>, n: int, counter: ListCounter, startOn: Boundary)
    requires !startOn.Single?
    ensures var r := LastNTokens(ms, n, counter, true, false, startOn);
            r.Ok? ==> && KeptSuffix(r.value, ms)
                      && PartialShape(Reverse(r.value), Reverse(ms), n, counter, DefaultTextSplitter)
  {
    FirstNPartialShape(Reverse(ms), n, counter, startOn, DefaultTextSplitter);
    LastNReversesFirst(ms, n, counter, true, startOn);
    LastNKeepsSuffix(ms, n, counter, true, startOn);
  }

  /** `keep_system` without a leading system message changes nothing, except that an empty
      list raises IndexError. */
  lemma KeepSystemWithoutSystem(ms: seq<Message>, n: int, counter: ListCounter, allowPartial: bool,
                                startOn: Boundary)
    requires |ms| > 0 && !StartsWithSystem(ms)
    ensures LastNTokens(ms, n, counter, allowPartial, true, startOn)
         == LastNTokens(ms, n, counter, allowPartial, false, startOn)
  {
  }

  /** With `keep_system`, a leading system message, no partial truncation and no single
      `start_on`, the result is the `r[:1] + r[1::-1]` slices of the longest fitting prefix
      `r` of the working list `messages[:1] + messages[1::-1]`. */
  lemma KeepSystemLongestFit(ms: seq<Message>, n: int, counter: ListCounter, startOn: Boundary)
    requires StartsWithSystem(ms) && !startOn.Single?
    ensures var work := ms[..1] + PyRev1(ms);
            exists k :: && 0 <= k <= |work| && LongestFit(work, n, counter, k)
                        && LastNTokens(ms, n, counter, false, true, startOn) == Ok(Take(work[..k], 1) + PyRev1(work[..k]))
  {
    var work := ms[..1] + PyRev1(ms);
    FirstNPrefixSearch(work, n, counter, startOn, DefaultTextSplitter);
    var rs := FirstNTokens(work, n, counter, false, startOn, DefaultTextSplitter).value;
    assert LastNTokens(ms, n, counter, false, true, startOn) == Ok(Take(rs, 1) + PyRev1(rs));
    assert rs == work[..|rs|];
    assert LongestFit(work, n, counter, |rs|);
  }

  /** A copy differs from its original in content at most. */
  lemma PartialSameExceptContent(c: Message, m: Message, splitter: string -> seq<string>)
    requires IsPartialOf(c, m, splitter)
    ensures SameExceptContent(c, m)
  {
  }

  /** Each message of a kept prefix agrees with the message at its position up to content. */
  lemma KeptPrefixPointwise(r: seq<Message>, ms: seq<Message>, splitter: string -> seq<string>)
    requires KeptPrefix(r, ms, splitter)
    ensures forall i :: 0 <= i < |r| ==> SameExceptContent(r[i], ms[i])
  {
    forall i | 0 <= i < |r| ensures SameExceptContent(r[i], ms[i]) {
      if r == ms[..|r|] || i < |r| - 1 {
        assert r[i] == ms[i] by {
          if r != ms[..|r|] { assert r[i] == r[..|r| - 1][i]; }
        }
      } else {
        PartialSameExceptContent(r[i], ms[i], splitter);
      }
    }
  }

  /** The result slices `r[:1] + r[1::-1]` of a non-empty list: its first element, then
      its second (when it has one), then its first again. */
  lemma KeepSystemSlices(rs: seq<Message>)
    requires |rs| > 0
    ensures var t := Take(rs, 1) + PyRev1(rs);
            && |t| == (if |rs| >= 2 then 3 else 2)
            && t[0] == rs[0] && t[|t| - 1] == rs[0]
            && (|rs| >= 2 ==> t[1] == rs[1])
  {
  }

  /** With `keep_system` and a leading system message, a non-empty result has two or three
      messages and starts and ends with the same one, a copy of the system message. The
      middle one is a copy of the second input message, or of the system message again when
      it is the only input. Nothing from input index 2 onwards is ever returned. */
  lemma KeepSystemShape(ms: seq<Message>, n: int, counter: ListCounter, allowPartial: bool,
                        startOn: Boundary)
    requires StartsWithSystem(ms)
    ensures var r := LastNTokens(ms, n, counter, allowPartial, true, startOn);
            r.Ok? && |r.value| > 0 ==>
              && 2 <= |r.value| <= 3
              && r.value[0] == r.value[|r.value| - 1]
              && SameExceptContent(r.value[0], ms[0])
              && (|r.value| == 3 ==> SameExceptContent(r.value[1], if |ms| >= 2 then ms[1] else ms[0]))
  {
    var work := ms[..1] + PyRev1(ms);
    var f := FirstNTokens(work, n, counter, allowPartial, startOn, DefaultTextSplitter);
    if f.Ok? {
      var rs := f.value;
      assert LastNTokens(ms, n, counter, allowPartial, true, startOn) == Ok(Take(rs, 1) + PyRev1(rs));
      if |rs| > 0 {
        KeepSystemSlices(rs);
        KeptPrefixPointwise(rs, work, DefaultTextSplitter);
        assert work[0] == ms[0];
        assert |ms| >= 2 ==> work[1] == ms[1];
        assert |ms| < 2 ==> work[1] == ms[0];
      }
    }
  }

  /** The keep-system slices can return more than the budget allows: with four messages of
      one token each and a budget of two, the result is the system message, the first human
      message and the system message again. */
  lemma KeepSystemExceedsBudget(s: Message, h1: Message, h2: Message, h3: Message)
    requires s.kind == System
    ensures LastNTokens([s, h1, h2, h3], 2, (xs: seq<Message>) => |xs|, false, true, NoBoundary)
         == Ok([s, h1, s])
  {
    var ms := [s, h1, h2, h3];
    assert ms[..1] + PyRev1(ms) == [s, h1, s];
    var work := [s, h1, s];
    var counter := (xs: seq<Message>) => |xs|;
    assert Search(work, 3, 2, counter) == 2;
    assert work[..2] == [s, h1];
    assert FirstNTokens(work, 2, counter, false, NoBoundary, DefaultTextSplitter) == Ok([s, h1]);
    assert Take([s, h1], 1) == [s];
    assert [s] + [h1, s] == [s, h1, s];
  }

  /** A lone system message with room to spare comes back three times: the working list
      is the message twice, and both slices of the two-message result keep it. */
  lemma KeepSystemTriplesLoneSystem(s: Message)
    requires s.kind == System
    ensures LastNTokens([s], 5, (xs: seq<Message>) => |xs|, false, true, NoBoundary) == Ok([s, s, s])
  {
    var counter := (xs: seq<Message>) => |xs|;
    assert [s][..1] + PyRev1([s]) == [s, s];
    assert Search([s, s], 2, 5, counter) == 2;
    assert [s, s][..2] == [s, s];
    assert FirstNTokens([s, s], 5, counter, false, NoBoundary, DefaultTextSplitter) == Ok([s, s]);
    assert Take([s, s], 1) + PyRev1([s, s]) == [s, s, s];
  }

  /** One token per message and a budget of two: "first" keeps the first two messages and
      "last" the last two. */
  lemma UnitCostExample(a: Message, b: Message, c: Message, d: Message)
    ensures FirstNTokens([a, b, c, d], 2, (xs: seq<Message>) => |xs|, false, NoBoundary, DefaultTextSplitter)
         == Ok([a, b])
    ensures LastNTokens([a, b, c, d], 2, (xs: seq<Message>) => |xs|, false, false, NoBoundary)
         == Ok([c, d])
  {
    var counter := (xs: seq<Message>) => |xs|;
    assert Search([a, b, c, d], 4, 2, counter) == 2;
    assert [a, b, c, d][..2] == [a, b];
    ReversePointwise([a, b, c, d]);
    assert Reverse([a, b, c, d]) == [d, c, b, a];
    assert Search([d, c, b, a], 4, 2, counter) == 2;
    assert [d, c, b, a][..2] == [d, c];
    ReversePointwise([d, c]);
    assert Reverse([d, c]) == [c, d];
  }

  /** The option combinations `trim_messages` rejects: `end_on` with "last", `start_on` with
      "first", `keep_system` with "first" (each option by its truthiness). */
  predicate OptionsClash(strategy: string, endOn: Boundary, startOn: Boundary, keepSystem: bool)
  {
    || (Truthy(endOn) && strategy == "last")
    || (Truthy(startOn) && strategy == "first")
    || (keepSystem && strategy == "first")
  }

  /** `trim_messages`: check the options, normalise the inputs, lift the counter, dispatch on
      the strategy. */
  function TrimMessages(likes: seq<MessageLike>, n: int, tc: TokenCounter, strategy: string,
                        allowPartial: bool, endOn: Boundary, startOn: Boundary, keepSystem: bool)
    : (r: Result<seq<Message>, Error>)
    ensures r == Err(IncompatibleOptions) <==> OptionsClash(strategy, endOn, startOn, keepSystem)
    ensures r == Err(UnrecognizedStrategy) <==>
              && !OptionsClash(strategy, endOn, startOn, keepSystem)
              && ConvertToMessages(likes).Ok? && strategy != "first" && strategy != "last"
    ensures !OptionsClash(strategy, endOn, startOn, keepSystem) && ConvertToMessages(likes).Err? ==>
              r == Err(ConvertToMessages(likes).error)
    ensures r.Ok? && strategy == "first" ==>
              KeptPrefix(r.value, ConvertToMessages(likes).value, DefaultTextSplitter)
    ensures r.Ok? && strategy == "last" && !keepSystem ==>
              KeptSuffix(r.value, ConvertToMessages(likes).value)
  {
    if OptionsClash(strategy, endOn, startOn, keepSystem) then Err(IncompatibleOptions)
    else
      var ms :- ConvertToMessages(likes);
      var counter := ListCounterOf(tc);
      if strategy == "first" then
        FirstNTokens(ms, n, counter, allowPartial, endOn, DefaultTextSplitter)
      else if strategy == "last" then
        LastNKeepsSuffix(ms, n, counter, allowPartial, startOn);
        LastNTokens(ms, n, counter, allowPartial, keepSystem, startOn)
      else Err(UnrecognizedStrategy)
  }

  /** With a per-message counter of non-negative counts and without `keep_system`, every
      non-empty result of either strategy is within the budget. */
  lemma TrimWithinBudget(likes: seq<MessageLike>, n: int, count: Message -> int, strategy: string,
                         allowPartial: bool, endOn: Boundary, startOn: Boundary)
    requires forall m :: count(m) >= 0
    ensures var r := TrimMessages(likes, n, PerMessage(count), strategy, allowPartial, endOn, startOn, false);
            r.Ok? && |r.value| > 0 ==> SumCounts(count, r.value) <= n
  {
    var counter := ListCounterOf(PerMessage(count));
    SumCountsMonotone(count);
    var conv := ConvertToMessages(likes);
    var r := TrimMessages(likes, n, PerMessage(count), strategy, allowPartial, endOn, startOn, false);
    if r.Ok? && |r.value| > 0 && conv.Ok? {
      var ms := conv.value;
      if strategy == "first" {
        FirstNWithinBudget(ms, n, counter, allowPartial, endOn, DefaultTextSplitter);
      } else {
        var rev := Reverse(ms);
        FirstNWithinBudget(rev, n, counter, allowPartial, startOn, DefaultTextSplitter);
        var rs := FirstNTokens(rev, n, counter, allowPartial, startOn, DefaultTextSplitter).value;
        assert r.value == Reverse(rs);
        SumCountsReverse(count, rs);
      }
    }
  }

  /** Without partial truncation and without a single boundary type, "first" keeps exactly
      the longest non-empty prefix within budget and "last" (without `keep_system`) exactly
      the longest non-empty suffix within budget, counted in reversed order. */
  lemma TrimLongestFit(likes: seq<MessageLike>, n: int, tc: TokenCounter, strategy: string,
                       endOn: Boundary, startOn: Boundary)
    requires strategy == "first" || strategy == "last"
    requires !OptionsClash(strategy, endOn, startOn, false)
    requires ConvertToMessages(likes).Ok?
    requires !endOn.Single? && !startOn.Single?
    ensures var ms := ConvertToMessages(likes).value;
            var r := TrimMessages(likes, n, tc, strategy, false, endOn, startOn, false);
            && r.Ok?
            && (strategy == "first" ==>
                  r.value == ms[..|r.value|] && LongestFit(ms, n, ListCounterOf(tc), |r.value|))
            && (strategy == "last" ==>
                  r.value == ms[|ms| - |r.value|..] && LongestFit(Reverse(ms), n, ListCounterOf(tc), |r.value|))
  {
    var ms := ConvertToMessages(likes).value;
    var counter := ListCounterOf(tc);
    if strategy == "first" {
      assert TrimMessages(likes, n, tc, strategy, false, endOn, startOn, false)
          == FirstNTokens(ms, n, counter, false, endOn, DefaultTextSplitter);
      FirstNPrefixSearch(ms, n, counter, endOn, DefaultTextSplitter);
    } else {
      assert TrimMessages(likes, n, tc, strategy, false, endOn, startOn, false)
          == LastNTokens(ms, n, counter, false, false, startOn);
      LastNLongestSuffix(ms, n, counter, startOn);
    }
  }

  /** Without partial truncation the only failure of a valid call is IndexError: under
      "first" exactly when the list is empty and a single `end_on` is given, under "last"
      exactly when it is empty and `keep_system` or a single `start_on` is given. */
  lemma TrimIndexError(likes: seq<MessageLike>, n: int, tc: TokenCounter, strategy: string,
                       endOn: Boundary, startOn: Boundary, keepSystem: bool)
    requires strategy == "first" || strategy == "last"
    requires !OptionsClash(strategy, endOn, startOn, keepSystem)
    requires ConvertToMessages(likes).Ok?
    ensures var ms := ConvertToMessages(likes).value;
            var r := TrimMessages(likes, n, tc, strategy, false, endOn, startOn, keepSystem);
            && (r.Err? <==> |ms| == 0 && (if strategy == "first" then endOn.Single?
                                          else keepSystem || startOn.Single?))
            && (r.Err? ==> r.error == IndexOutOfRange)
  {
    var ms := ConvertToMessages(likes).value;
    if strategy == "last" && !keepSystem && |ms| == 0 && startOn.Single? {
      assert Reverse(ms) == [];
    }
  }

  /** For valid options and normalised inputs, "first" is `_first_n_tokens` and "last" is
      `_last_n_tokens` on the normalised list, with the lifted counter, every option passed
      on and the default text splitter. */
  lemma TrimDispatch(likes: seq<MessageLike>, n: int, tc: TokenCounter, strategy: string,
                     allowPartial: bool, endOn: Boundary, startOn: Boundary, keepSystem: bool)
    requires !OptionsClash(strategy, endOn, startOn, keepSystem)
    requires ConvertToMessages(likes).Ok?
    ensures var ms := ConvertToMessages(likes).value;
            var r := TrimMessages(likes, n, tc, strategy, allowPartial, endOn, startOn, keepSystem);
            && (strategy == "first" ==>
                  r == FirstNTokens(ms, n, ListCounterOf(tc), allowPartial, endOn, DefaultTextSplitter))
            && (strategy == "last" ==>
                  r == LastNTokens(ms, n, ListCounterOf(tc), allowPartial, keepSystem, startOn))
  {
  }
}
